=== FILE: README.md ===
# pantofel-v2 core, modelled in Dafny

pantofel-v2 is a Discord music bot. Its core is a small framework, and this
project models that framework together with the one command it ships as an
example (`skip`):

- **Executors** (`Executor` module) are named slash commands. A *routing*
  executor also keeps a table of button routes. `linkInteraction` encodes a
  route and its arguments into a button id `name:action/arg1/arg2`, and
  `button` decodes the part after `:` back into the route handler and its
  variables. `linkInteraction` and `route` accept only fragments matching
  `[a-zA-Z0-9]+`; `button` only rejects an empty first piece.
- **The command manager** (`Command` module) registers one executor per
  name, skipping duplicates with an error. It dispatches slash commands,
  button clicks and autocomplete requests. For slash commands and buttons,
  a missing handler or an exception becomes an ephemeral reply; for
  autocomplete it becomes an empty suggestion list.
- **The `skip` command** (`Skip` module) covers four cases: nothing is
  playing; the user is outside the voice channel; a privileged force skip;
  and a vote that skips once half the listeners (rounded up) agree.
- **Utilities** (`Util` module):
  - a random array element;
  - the in-place Fisher–Yates shuffle;
  - the song embed, with its artwork rules for `https://` and `res://` URLs.
- **The logger** (`Logger` module):
  - a lazily created process-wide instance;
  - the level threshold;
  - the two-digit padded timestamp `HH:MM:SS DD/MM`;
  - the line `[timestamp][LEVEL] message`;
  - the console stream chosen per level.
- **The service registry** (`Service` module):
  - `@Service` constructs an instance and appends it to a list, warning
    about each earlier service it is also an instance of;
  - `@Autowired` binds a property to the first instance selected by a name
    hint, then by a class hint, then by the property's declared type, and
    throws when none of them selects anything.

Shared helpers live in `Wrappers` (`Option`, `Result`) and `Strings`. The
`Strings` module covers JavaScript's `split` on a character and on runs of a
character, `join`, decimal rendering, substring search and ASCII
lower-casing.

The model has no side effects:
- Randomness is a nondeterministic choice (`:|`).
- What Discord, the database or the playlist service return is a parameter.
- Whether a handler throws is a boolean input.
- The log messages that registration and autowiring write are returned as
  `LogEntry` values.
- JavaScript classes are identities with ancestor sets, so `instanceof` is
  set membership.

## Model

| member | source | states |
|---|---|---|
| Executor.FirstForbidden | src/executor.ts:59-60 | the first match of `/[^a-zA-Z0-9]/`: the character there is not alphanumeric, every earlier one is, and no match means every character is |
| Executor.ValidateFragment | src/executor.ts:59-61 | a fragment is valid exactly when it is non-empty and wholly alphanumeric |
| Executor.FragmentHasNoSeparators | src/executor.ts:59-61 | a valid fragment contains neither `/` nor `:`, the two separators of a button id |
| Executor.EncodedArguments | src/executor.ts:68 | the argument suffix is empty exactly when no argument array is given, and otherwise starts with `/` |
| Executor.LinkInteraction | src/executor.ts:63-70 | fails with "… is not a valid action name" exactly for an invalid action; otherwise the id is `name:action`, `name:action/` for an empty array, or `name:` followed by the action and the arguments joined with `/` |
| Executor.Route | src/executor.ts:72-82 | succeeds exactly for a valid name that is not yet routed, with the two error messages otherwise; on success the table gains exactly that name, bound to the handler, and keeps every old binding |
| Executor.Button | src/executor.ts:84-98 | a plain executor throws "not implemented"; an empty first piece fails; otherwise it succeeds exactly when the first `/`-run-separated piece is a route; the call names that route, its handler, a non-empty prefix of the id ending at a `/`, and variables free of `/` that exist exactly when the id has a `/`; the route followed by the variables are, in order, the pieces of `split(/\/+/)` |
| Executor.LinkThenButton | src/executor.ts:63-98 | round trip: decoding the route part of a linked id selects the action's handler with the arguments as variables, when every argument is non-empty and free of `/` |
| Executor.LinkEmptyArgsThenButton | src/executor.ts:68-91 | an empty argument array encodes a trailing `/`, which decodes as one empty variable, not none |
| Command.RegisterCommand | src/command.ts:41-47 | fails with "command … is already registered" exactly when the name is taken; otherwise it adds that one binding and keeps all others |
| Command.RegisterPrefixOrigin | src/command.ts:49-63 | after any number of handlers, the registry is keyed by the executors' own names and holds only executors some earlier handler constructed |
| Command.RegisterPrefixCovers | src/command.ts:49-63 | after any number of handlers, the name of every executor constructed so far is registered |
| Command.RegisterPrefixFirst | src/command.ts:49-63 | after any number of handlers, each name is bound to the first executor constructed with it |
| Command.RegisterPrefixAccounts | src/command.ts:49-63 | after any number of handlers, registered names plus failures count the handlers; a failure is a constructor that threw or a duplicate name, and every constructor that threw is a failure |
| Command.AutoRegisterCommands | src/command.ts:49-63 | each handler either throws in its constructor or yields an executor; every constructed executor's name ends up registered, under the first executor that carried it; registered executors are keyed by their own names and were all constructed; every failure is a constructor that threw or a duplicate, every throwing constructor is a failure, and registered plus failed handlers account for all of them |
| Command.HandleCommand | src/command.ts:66-87 | the executor registered under the command name is invoked exactly when one exists; the not-found reply otherwise; the error reply exactly when the handler throws |
| Command.HandleAutocomplete | src/command.ts:114-135 | like command dispatch, but the reply is an empty suggestion list exactly when no handler exists or it throws; in a registry keyed by names, the executor invoked carries the requested name |
| Command.CommandIdOf | src/command.ts:90-93 | the command id is the prefix of the button id up to its first `:`, and contains no `:` |
| Command.RouteOf | src/command.ts:90-97 | the route is undefined exactly when the id has no `:`; otherwise it is the text after the first `:` up to the next `:` |
| Command.HandleButton | src/command.ts:89-112 | the executor is chosen by the command id; the route handed to it is the second `:` piece; a route handler runs exactly when `button` decodes the route, and then it is the call `button` decodes; a missing executor gives the not-found reply; any decode failure or handler exception gives the error reply |
| Command.SplitIdOnColon | src/command.ts:91 | `split(':')` of `name:route` yields exactly the two halves when neither contains `:` |
| Command.LinkThenHandleButtonRoute | src/command.ts:89-97 | an id built by `linkInteraction` reaches its executor with the route part exactly as encoded |
| Command.LinkThenHandleButton | src/command.ts:89-112 | the whole round trip through the manager: the linked id reaches the action's handler with the arguments as variables and no error reply |
| Skip.QuorumTarget | src/commands/skip.ts:73 | `Math.ceil(userCount / 2)`: the least count whose double is at least the user count |
| Skip.QuorumExamples | src/commands/skip.ts:73 | the target for 0, 1, 3 and 4 users is 0, 1, 2 and 2 |
| Skip.QuorumIsHalf | src/commands/skip.ts:73-74 | reaching the target is the same as at least half of the users voting |
| Skip.SkipCard | src/commands/skip.ts:61-63 | the skip card is the song card with the skip colour and the given description, and the same title, author, thumbnail and files |
| Skip.MayForceSkip | src/commands/skip.ts:59 | the force path is chosen exactly when `force` is true and the user record exists and may force skip; an absent option counts as false |
| Skip.ProgressText | src/commands/skip.ts:81-83 | the progress text `${voteCount}/${targetCount}` splits on `/` into exactly two decimal renderings (non-empty, no leading zero) whose values are the two counts |
| Skip.SkipCommand | src/commands/skip.ts:36-89 | nothing playing means no calls and a rejection; otherwise the user is looked up first; outside a voice channel or not a member, the command rejects before any skip or vote; the force path is taken exactly for a privileged user who asked, and skips without voting, announcing the skip or reporting that it failed; the vote path makes exactly the calls: look up the user, vote, and skip the song only when the quorum is reached |
| Skip.ForceDefaultsToFalse | src/commands/skip.ts:38 | an absent `force` option behaves as `false` |
| Skip.VoteIgnoresSkipResult | src/commands/skip.ts:72-79 | on the vote path the result of `skipCurrentSong` is never consulted |
| Util.RandomIndex | src/util.ts:10 | `Math.floor(Math.random() * n)` is an index below a positive `n` |
| Util.RandomArrayElement | src/util.ts:9-11 | the result is an element of the array, and `undefined` exactly for an empty array |
| Util.SwapAtPermutes | src/util.ts:20 | a destructuring swap keeps the same elements with the same multiplicities |
| Util.ApplySwapsPrefix | src/util.ts:18-21 | later swaps do not change the effect of earlier ones |
| Util.ApplySwapsPermutes | src/util.ts:18-21 | any prefix of the swap sequence is a permutation |
| Util.Shuffle | src/util.ts:17-23 | the result is the input after one swap for each position from the last down to 1, each with a position no later than it; the result is a permutation of the input, and arrays of length 0 or 1 come back unchanged |
| Util.UnixSeconds | src/util.ts:30 | `Math.floor(ms / 1000)`: the whole seconds containing the instant, negative instants included |
| Util.PrefixesExclusive | src/util.ts:39-41 | no URL starts with both `https://` and `res://` |
| Util.Artwork | src/util.ts:38-47 | an `https://` URL is the thumbnail with no files; a `res://` URL becomes a `cover.webp` attachment under the jacket directory, shown as the thumbnail; anything else, or no URL, gives neither |
| Util.ArtworkResourceRoundTrip | src/util.ts:41-44 | a `res://` URL yields one attachment whose path is the jacket directory and `/` followed by the rest of the URL, so replacing that directory with `res://` gives back the URL |
| Util.SongEmbed | src/util.ts:29-50 | title, author and colour come from the song, the description carries the user mention and the relative timestamp, at most one file is attached, and only for `res://`, and there is a thumbnail exactly for the two recognised prefixes; the thumbnail and the file are exactly those the artwork rules give |
| Logger.LogLevel.Rank | src/logger.ts:9-11 | the enum's numeric values are at most 2 |
| Logger.RankOrder | src/logger.ts:9-11 | the numeric values are distinct and order the levels INFO < WARN < ERROR |
| Logger.LogLevel.Name | src/logger.ts:9-11 | `LogLevel[level]` is a non-empty name without `]`, so it cannot close the bracket early |
| Logger.NameThenLevelNamed | src/logger.ts:9-11 | distinct levels have distinct names, and each name reads back as its level |
| Logger.LevelNamed | src/logger.ts:9-11 | the reverse of `LogLevel[level]`: a name denotes the level with that name, and any other name denotes none |
| Logger.Acquire | src/logger.ts:16-22 | the getter returns the stored instance when there is one, otherwise the new one, which it stores |
| Logger.AcquireIsStable | src/logger.ts:16-22 | every access after the first returns the first instance |
| Logger.SliceLast | src/logger.ts:53 | `slice(-k)` is a suffix of the string: the last `k` characters, or the whole of a shorter string; `k = 0` keeps the whole string, as `slice(-0)` does |
| Logger.PadChars | src/logger.ts:53 | `('0' + n).slice(-2)` is the tens digit followed by the units digit of `n` |
| Logger.Pad | src/logger.ts:52-54 | two digits whose value is `n % 100`; a single digit gains a leading zero |
| Logger.Layout | src/logger.ts:58 | the five fields laid out with `:`, `:`, space and `/` at fixed positions, each field readable back from its slice |
| Logger.LogTimestamp | src/logger.ts:56-61 | the timestamp is 14 characters long, with `:`, `:`, space and `/` at positions 2, 5, 8 and 11 |
| Logger.TimestampFields | src/logger.ts:56-61 | the timestamp has its separators at fixed positions, and each field reads back as its clock value (hours, minutes, seconds, day, month counted from 1) modulo 100 |
| Logger.ConsoleFor | src/logger.ts:69-73 | ERROR goes to `console.error`, WARN to `console.warn`, anything else to `console.log` |
| Logger.FormatLine | src/logger.ts:67 | the formatted line is five characters longer than its three parts together, starts with `[` and ends with the message |
| Logger.FormatLineShape | src/logger.ts:67 | where the timestamp, the level name and the message sit in a formatted line |
| Logger.FormatThenParse | src/logger.ts:67 | formatting loses nothing: timestamp, level and message can be read back from the line |
| Logger.Log | src/logger.ts:63-76 | nothing is emitted exactly for levels below the threshold; otherwise the line goes to the level's console, the file receives the line and a newline, and the line reads back as the timestamp, level and message |
| Logger.LogThresholdMonotone | src/logger.ts:64 | a threshold that passes a level passes every more severe one |
| Logger.Error | src/logger.ts:78-80 | an ERROR line on the error stream, suppressed only by a threshold above 2 |
| Logger.Warning | src/logger.ts:82-84 | a WARN line on the warning stream, suppressed only by a threshold above 1 |
| Logger.Info | src/logger.ts:86-88 | an INFO line on the standard stream, suppressed only by a threshold above 0 |
| Strings.StartsWithConcat | src/util.ts:39-41 | `startsWith(prefix)` holds for `prefix` followed by any text, and a string that starts with `prefix` is `prefix` followed by the rest |
| Strings.JoinEnds | src/executor.ts:68 | `join` of no parts is empty; otherwise the result starts with the first part and ends with the last |
| Strings.Split | src/command.ts:91 | `split` on a character: at least one piece, none containing the character, and more than one exactly when the character occurs |
| Strings.SplitThenJoin | src/command.ts:91 | joining the pieces of a split with the separator gives back the string |
| Strings.SplitAfterFree | src/command.ts:91 | text free of the separator, then the separator, splits into that text followed by the split of the rest |
| Strings.JoinThenSplit | src/command.ts:91 | splitting a join of pieces free of the separator gives back the pieces |
| Strings.SplitRuns | src/executor.ts:85 | `split(/\/+/)`: at least one piece, none containing the separator, more than one exactly when it occurs; every middle piece is non-empty, and so is the first unless the string is empty or starts with the separator |
| Strings.SplitRunsTail | src/executor.ts:85 | the first piece ends at the first separator, and the remaining pieces are the split of what follows the whole separator run |
| Strings.JoinThenSplitRuns | src/executor.ts:68-85 | splitting on runs a join of non-empty pieces free of the separator gives back the pieces |
| Strings.NatToString | src/commands/skip.ts:82 | the rendering of a natural number is a non-empty digit string ending in the units digit, one digit long exactly below 10, with a leading zero only for 0 |
| Strings.IntToString | src/util.ts:35 | the rendering of an integer: digits reading back as the number when it is non-negative, otherwise `-` followed by digits reading back as its magnitude; a leading `0` only for 0 itself |
| Strings.NatToStringValue | src/commands/skip.ts:82 | the decimal rendering of a number reads back as the number |
| Strings.IndexOfText | src/service.ts:51 | `indexOf` of a substring: the first position at or after the start where it occurs |
| Strings.Lower | src/service.ts:51 | lower-casing keeps the length, leaves no upper-case letter, turns each upper-case letter into its own lower-case letter (code point plus 32) and keeps every other character |
| Service.AmbiguityWarnings | src/service.ts:16-20 | every earlier service the new instance is an instance of is reported by a WARN entry naming both classes, every entry reports such a service, and there are none exactly when there is no such service |
| Service.AmbiguityWarningsSnoc | src/service.ts:16-20 | one more registered service adds at most its own warning, at the end |
| Service.Register | src/service.ts:11-24 | the new instance is always appended after all earlier ones; the log is the INFO registration line followed by exactly the ambiguity warnings of the earlier services, and there are warnings exactly when an earlier service is ambiguous |
| Service.RegisterAll | src/service.ts:9-24 | the registry holds one instance per decorated class, in decoration order |
| Service.MatchesByName | src/service.ts:51 | a name filter selects a service exactly when the hint occurs somewhere in its lower-cased class name |
| Service.MatchesByClass | src/service.ts:58-71 | `instanceof` a class holds for an instance of that class and of every class extending it, and for nothing else |
| Service.FirstMatch | src/service.ts:35-45 | the loop of `tryAutowire`: the first service that passes the filter, or none when none passes |
| Service.NameFilter | src/service.ts:47-51 | a name filter exists exactly when a non-empty name is given |
| Service.ClassFilter | src/service.ts:58-61 | a class filter exists exactly when a class is given |
| Service.Bind | src/service.ts:36-40 | a successful `tryAutowire`: the member is set to the service, nothing else changes, and one INFO entry `autowired service <class> to property <member>` is appended |
| Service.ResolveByType | src/service.ts:69-73 | the declared type binds its first instance, or the "cannot be initialized" error exactly when no service is one |
| Service.ResolveByClass | src/service.ts:58-73 | a class hint that selects something binds its first match; one that selects nothing warns and falls through to the declared type; no hint goes straight there |
| Service.ResolveByTypeAfter | src/service.ts:69-73 | the declared-type stage only appends to the log it is given; the binding does not depend on earlier log lines |
| Service.ResolveByClassAfter | src/service.ts:58-73 | the class-hint stage likewise only appends to the log it is given |
| Service.ResolveByTypeWellLogged | src/service.ts:37-73 | after warnings only, the declared-type stage leaves warnings followed by one INFO entry exactly when it binds |
| Service.Autowire | src/service.ts:31-74 | autowiring fails exactly when the name hint, the class hint and the declared type all select nothing, with the "cannot be initialized" message |
| Service.NameHintWins | src/service.ts:47-53 | a name hint that selects something binds its first match, with nothing logged before the binding |
| Service.ClassHintWins | src/service.ts:58-63 | otherwise a class hint that selects something binds its first match, after the name hint's warning |
| Service.DeclaredTypeDecides | src/service.ts:47-73 | when neither hint selects anything, the declared type decides, after one warning per hint given |
| Service.AutowireSetsOnlyMember | src/service.ts:34-45 | on success only the member changes, and it is bound to a registered service that one of the filters selects |
| Service.AutowireLogLevels | src/service.ts:37-73 | the log holds warnings for missed hints, followed by one INFO entry when a service was bound; autowiring never logs an error |
| Service.NameHintDecides | src/service.ts:47-53 | once the name hint selects a service, the class hint and the declared type make no difference |
| Service.NameMissFallsThrough | src/service.ts:48-56 | a name hint that selects nothing adds one warning; the result is otherwise that of giving no name |
| Service.ClassMissFallsThrough | src/service.ts:58-66 | a class hint that selects nothing adds one warning; the result is otherwise that of giving no parameters |
| Service.EmptyNameIgnored | src/service.ts:48 | an empty name is falsy and behaves as no name |
| Service.UpperCaseHintNeverMatches | src/service.ts:51 | the class name is lower-cased but the hint is not, so a hint containing an upper-case letter selects no service |

## Left out

- Discord I/O: replies, deferred replies, embeds and attachments are values, not sent messages.
- `CommandExecutor.build`, `SkipCommand.build` and `buildCommands` (src/command.ts:137-168) are left out. They build slash-command JSON and upload it over REST with a token from the environment.
- The executor constructors are not modelled. What each one produces, an executor or a thrown error, is the input to `Command.AutoRegisterCommands`.
- The executor getters `getName` and `getDescription` are the datatype's fields.
- The default `command` and `autocomplete` of a plain executor throw. Handler exceptions are modelled only as the `handlerThrows` input.
- The registration and dispatch log lines of the command manager, and the `displayErrorStack` switch, are left out. For a thrown `Error` object they affect only the log.
- `handlerThrows` and a constructor's `Err` stand for a thrown `Error` object. A thrown `null` or `undefined` is not modelled. With `displayErrorStack` on, reading its `.stack` (src/command.ts:60, 78, 103, 126) throws again from inside the `catch`. `autoRegisterCommands` would then stop at that handler, and the dispatchers would reject without sending their error reply.
- The playlist and database services (src/services/*) are not part of this model. `getCurrentSong`, `findUnique`, `voteSkip` and `skipCurrentSong` appear as inputs, or as recorded calls.
- `Util.wait` and `Util.exec` are left out: they wrap a timer and a child process.
- `Util.RandomIndex`: the `Math.random()` draw is an arbitrary choice. Uniformity of the draw, and therefore of the shuffle, is not modelled.
- `Util.Shuffle`: the array is a value. The result is returned rather than written in place, so the identity of the returned array is not modelled.
- `Util.Artwork`: `replace('res://', dir + '/')` is modelled as dropping the prefix, which is what it does on a string that starts with it. The `$` patterns of JavaScript's `replace` are not modelled.
- `Util.UnixSeconds`: `Date` is an integer count of milliseconds; invalid dates are not modelled.
- The logger's constructor is left out: it reads the configuration, creates the directory, and picks a fresh file name by probing the file system (src/logger.ts:28-50). `LoggerConfig` stands for its result.
- The logger's file write is modelled as the text appended, not the stream.
- `Logging` (src/logger.ts:91-123) only forwards to the singleton and is left out.
- `Logger.LogTimestamp`: the clock is a parameter. Its fields are taken as natural numbers, as `Date` produces them.
- `Logger.Pad`: only natural numbers are modelled, which is all the timestamp passes.
- `Strings.NatToStringValue`: JavaScript's number-to-string is modelled for integers only, not for fractions or exponent notation.
- `Strings.Lower`: `toLocaleLowerCase` is modelled for ASCII letters only. Other characters are left unchanged, and locale rules are not modelled.
- `Service.Autowire`: the declared type comes from `reflect-metadata` and is always assumed present. When it is undefined, `instanceof` would throw a `TypeError`, and that case is not modelled.
- The process-wide mutable `services` array is a registry value passed in and returned.
- Constructing a service runs its constructor, which is not modelled. Instances are identified by their class.

=== FILE: command.dfy ===
/** The command manager (src/command.ts): a registry of executors keyed by
    command name, filled once from the decorated handler classes, and the
    three dispatch entry points for slash commands, button clicks and
    autocomplete requests. What a handler does when it runs is outside the
    model; whether it throws is an input. */
module Command {
  import opened Wrappers
  import opened Strings
  import opened Executor

  type CommandTable = map<string, Executor>

  const ERROR_REPLY := "an error has occured while processing your query"
  const NOT_FOUND_REPLY :=
    "https://cdn.discordapp.com/attachments/895285228531245106/921914115348381726/aler_copium.gif"

  /** A reply sent by the manager itself (handlers send their own). */
  datatype Reply = Ephemeral(content: string) | EmptySuggestions

  /** Outcome of a slash-command or autocomplete dispatch. */
  datatype Dispatch = Dispatch(invoked: Option<Executor>, reply: Option<Reply>)

  /** Outcome of a button dispatch: the executor chosen by the command id,
      the route text handed to it, the route handler it selected, and the
      manager's own reply. */
  datatype ButtonDispatch = ButtonDispatch(
    command: Option<Executor>,
    route: Option<string>,
    call: Option<RouteCall>,
    reply: Option<Reply>)

  /** Every executor is filed under its own name. */
  ghost predicate WellKeyed(m: CommandTable) {
    forall n :: n in m ==> m[n].name == n
  }

  // ---------------------------------------------------------------------------
  // Registration

  /** `registerCommand`. */
  function RegisterCommand(m: CommandTable, e: Executor): (r: Result<CommandTable>)
    ensures r.Err? <==> e.name in m
    ensures r.Err? ==> r.error == "command " + e.name + " is already registered"
    ensures r.Ok? ==> e.name in r.value && r.value[e.name] == e
    ensures r.Ok? ==> forall n :: n != e.name ==> (n in r.value <==> n in m)
    ensures r.Ok? ==> forall n :: n in m ==> r.value[n] == m[n]
  {
    if e.name in m then
      Err("command " + e.name + " is already registered")
    else
      Ok(m[e.name := e])
  }

  /** The handler at `k` was constructed, and no constructed handler before
      it has its name. */
  ghost predicate FirstOfName(handlers: seq<Result<Executor>>, k: int)
    requires 0 <= k < |handlers|
  {
    && handlers[k].Ok?
    && forall j :: 0 <= j < k && handlers[j].Ok? ==> handlers[j].value.name != handlers[k].value.name
  }

  /** The registry and the failed handlers after the first `count` steps of
      `autoRegisterCommands`. `handlers` holds what each constructor
      produced, or the error it threw (a routing executor whose `route` call
      fails, for one); a failed construction or registration is logged and
      the loop goes on. */
  function RegisterPrefix(handlers: seq<Result<Executor>>, count: nat): (r: (CommandTable, seq<Result<Executor>>))
    requires count <= |handlers|
    decreases count
  {
    if count == 0 then (map[], [])
    else
      var (m, failed) := RegisterPrefix(handlers, count - 1);
      var h := handlers[count - 1];
      if h.Err? then (m, failed + [h])
      else
        match RegisterCommand(m, h.value)
        case Ok(next) => (next, failed)
        case Err(_) => (m, failed + [h])
  }

  /** Every registered executor is filed under its own name and was built by
      an earlier handler. */
  lemma {:induction false} RegisterPrefixOrigin(handlers: seq<Result<Executor>>, count: nat)
    requires count <= |handlers|
    ensures var m := RegisterPrefix(handlers, count).0;
      && WellKeyed(m)
      && forall n :: n in m ==> exists k :: 0 <= k < count && handlers[k] == Ok(m[n])
  {
    if count > 0 {
      RegisterPrefixOrigin(handlers, count - 1);
      var m := RegisterPrefix(handlers, count - 1).0;
      forall n | n in m
        ensures exists k :: 0 <= k < count && handlers[k] == Ok(m[n])
      {
        var k :| 0 <= k < count - 1 && handlers[k] == Ok(m[n]);
      }
    }
  }

  /** The name of every handler that was built is registered. */
  lemma {:induction false} RegisterPrefixCovers(handlers: seq<Result<Executor>>, count: nat)
    requires count <= |handlers|
    ensures var m := RegisterPrefix(handlers, count).0;
      forall k :: 0 <= k < count && handlers[k].Ok? ==> handlers[k].value.name in m
  {
    if count > 0 {
      RegisterPrefixCovers(handlers, count - 1);
    }
  }

  /** A name is bound to the first handler that was built with it. */
  lemma {:induction false} RegisterPrefixFirst(handlers: seq<Result<Executor>>, count: nat)
    requires count <= |handlers|
    ensures var m := RegisterPrefix(handlers, count).0;
      forall k :: 0 <= k < count && FirstOfName(handlers, k) ==>
        handlers[k].value.name in m && m[handlers[k].value.name] == handlers[k].value
  {
    if count > 0 {
      var before := RegisterPrefix(handlers, count - 1).0;
      var m := RegisterPrefix(handlers, count).0;
      RegisterPrefixFirst(handlers, count - 1);
      RegisterPrefixCovers(handlers, count - 1);
      RegisterPrefixOrigin(handlers, count - 1);
    }
  }

  /** Every handler is either registered or failed, and a failure is a
      handler that could not be built or whose name was already taken. */
  lemma {:induction false} RegisterPrefixAccounts(handlers: seq<Result<Executor>>, count: nat)
    requires count <= |handlers|
    ensures var (m, failed) := RegisterPrefix(handlers, count);
      && |m| + |failed| == count
      && (forall k :: 0 <= k < |failed| ==> failed[k].Err? || failed[k].value.name in m)
      && (forall k :: 0 <= k < count && handlers[k].Err? ==> handlers[k] in failed)
  {
    if count > 0 {
      RegisterPrefixAccounts(handlers, count - 1);
      var (before, failedBefore) := RegisterPrefix(handlers, count - 1);
      var (m, failed) := RegisterPrefix(handlers, count);
      assert forall k :: 0 <= k < |failedBefore| ==> failed[k] == failedBefore[k];
      assert forall n :: n in before ==> n in m;
    }
  }

  /** `autoRegisterCommands`: constructs and registers every decorated
      handler in order, so each name ends up bound to the first handler
      that was built with it, and the name of a handler that could not be
      built may stay unregistered. */
  method AutoRegisterCommands(handlers: seq<Result<Executor>>) returns (m: CommandTable, failed: seq<Result<Executor>>)
    ensures WellKeyed(m)
    ensures forall k :: 0 <= k < |handlers| && handlers[k].Ok? ==> handlers[k].value.name in m
    ensures forall n :: n in m ==> Ok(m[n]) in handlers
    ensures forall k :: 0 <= k < |handlers| && FirstOfName(handlers, k) ==> m[handlers[k].value.name] == handlers[k].value
    ensures |m| + |failed| == |handlers|
    ensures forall k :: 0 <= k < |failed| ==> failed[k].Err? || failed[k].value.name in m
    ensures forall k :: 0 <= k < |handlers| && handlers[k].Err? ==> handlers[k] in failed
  {
    m := map[];
    failed := [];
    var i := 0;
    while i < |handlers|
      invariant 0 <= i <= |handlers|
      invariant (m, failed) == RegisterPrefix(handlers, i)
    {
      var h := handlers[i];
      if h.Err? {
        failed := failed + [h];
      } else {
        var registered := RegisterCommand(m, h.value);
        if registered.Ok? {
          m := registered.value;
        } else {
          failed := failed + [h];
        }
      }
      i := i + 1;
    }
    RegisterPrefixOrigin(handlers, i);
    RegisterPrefixCovers(handlers, i);
    RegisterPrefixFirst(handlers, i);
    RegisterPrefixAccounts(handlers, i);
  }

  // ---------------------------------------------------------------------------
  // Dispatch

  /** `handleCommand`: runs the executor registered under `commandName`; a
      thrown error becomes an ephemeral error reply. */
  function HandleCommand(m: CommandTable, commandName: string, handlerThrows: bool): (d: Dispatch)
    ensures d.invoked.Some? <==> commandName in m
    ensures d.invoked.Some? ==> d.invoked.value == m[commandName]
    ensures WellKeyed(m) && d.invoked.Some? ==> d.invoked.value.name == commandName
    ensures commandName !in m ==> d.reply == Some(Ephemeral(NOT_FOUND_REPLY))
    ensures commandName in m ==> (d.reply.Some? <==> handlerThrows)
    ensures commandName in m && handlerThrows ==> d.reply == Some(Ephemeral(ERROR_REPLY))
  {
    if commandName in m then
      Dispatch(Some(m[commandName]), if handlerThrows then Some(Ephemeral(ERROR_REPLY)) else None)
    else
      Dispatch(None, Some(Ephemeral(NOT_FOUND_REPLY)))
  }

  /** `handleAutocomplete`: like `handleCommand`, but every failure answers
      with an empty suggestion list. */
  function HandleAutocomplete(m: CommandTable, commandName: string, handlerThrows: bool): (d: Dispatch)
    ensures d.invoked.Some? <==> commandName in m
    ensures d.invoked.Some? ==> d.invoked.value == m[commandName]
    ensures WellKeyed(m) && d.invoked.Some? ==> d.invoked.value.name == commandName
    ensures d.reply.Some? <==> commandName !in m || handlerThrows
    ensures d.reply.Some? ==> d.reply.value == EmptySuggestions
  {
    if commandName in m then
      Dispatch(Some(m[commandName]), if handlerThrows then Some(EmptySuggestions) else None)
    else
      Dispatch(None, Some(EmptySuggestions))
  }

  /** The command id of a button id: the text before the first `:`. */
  function CommandIdOf(customId: string): (id: string)
    ensures ':' !in id && StartsWith(customId, id)
    ensures |id| == |customId| || customId[|id|] == ':'
  {
    SplitHead(customId, ':');
    Split(customId, ':')[0]
  }

  /** The route of a button id: the text between the first and the second
      `:`, or nothing when there is no `:` at all. */
  function RouteOf(customId: string): (route: Option<string>)
    ensures route.None? <==> ':' !in customId
    ensures route.Some? ==>
      var rest := customId[|CommandIdOf(customId)| + 1..];
      ':' !in route.value && StartsWith(rest, route.value)
      && (|route.value| == |rest| || rest[|route.value|] == ':')
  {
    var parts := Split(customId, ':');
    if |parts| > 1 then
      SplitTail(customId, ':');
      SplitHead(customId[|parts[0]| + 1..], ':');
      Some(parts[1])
    else
      None
  }

  /** `handleButton`: the command id picks the executor, which decodes the
      route. A missing route (`undefined`) makes the executor throw. Every
      error, the route handler's included, becomes an ephemeral reply. */
  function HandleButton(m: CommandTable, customId: string, handlerThrows: bool): (d: ButtonDispatch)
    ensures d.command.Some? <==> CommandIdOf(customId) in m
    ensures d.command.Some? ==> d.command.value == m[CommandIdOf(customId)]
    ensures d.command.Some? ==> d.route == RouteOf(customId)
    ensures d.call.Some? ==> d.command.Some? && d.route.Some?
    ensures d.call.Some? ==> Button(d.command.value, d.route.value) == Ok(d.call.value)
    // A route that decodes always reaches its handler.
    ensures d.command.Some? && d.route.Some? && Button(d.command.value, d.route.value).Ok? ==>
      d.call == Some(Button(d.command.value, d.route.value).value)
    ensures d.command.None? ==> d.reply == Some(Ephemeral(NOT_FOUND_REPLY)) && d.call.None?
    ensures d.command.Some? && d.call.None? ==> d.reply == Some(Ephemeral(ERROR_REPLY))
    ensures d.call.Some? ==> (d.reply.Some? <==> handlerThrows)
    ensures d.call.Some? && handlerThrows ==> d.reply == Some(Ephemeral(ERROR_REPLY))
    ensures d.reply.Some? ==> d.reply.value.Ephemeral?
  {
    var commandId := CommandIdOf(customId);
    if commandId !in m then
      ButtonDispatch(None, None, None, Some(Ephemeral(NOT_FOUND_REPLY)))
    else
      var e := m[commandId];
      var route := RouteOf(customId);
      var decoded := if route.Some? then Button(e, route.value) else Err("route is undefined");
      if decoded.Err? then
        ButtonDispatch(Some(e), route, None, Some(Ephemeral(ERROR_REPLY)))
      else
        ButtonDispatch(Some(e), route, Some(decoded.value),
                       if handlerThrows then Some(Ephemeral(ERROR_REPLY)) else None)
  }

  // ---------------------------------------------------------------------------
  // Round trips through the manager

  /** Splitting `name:route` on `:` when neither half contains `:`. */
  lemma SplitIdOnColon(name: string, route: string)
    requires ':' !in name && ':' !in route
    ensures Split(name + ":" + route, ':') == [name, route]
  {
    JoinCons([name, route], ":");
    assert [name, route][1..] == [route];
    JoinThenSplit([name, route], ':');
  }

  /** An id built by `linkInteraction` for a registered executor whose name
      and arguments contain no `:` comes back to that executor, with the
      route part exactly as encoded. */
  lemma LinkThenHandleButtonRoute(m: CommandTable, e: Executor, action: string, args: Option<seq<string>>)
    requires e.Routing? && e.name in m && m[e.name] == e && ':' !in e.name
    requires ValidateFragment(action)
    requires args.Some? ==> forall k :: 0 <= k < |args.value| ==> ':' !in args.value[k]
    ensures LinkInteraction(e, action, args).Ok?
    ensures var d := HandleButton(m, LinkInteraction(e, action, args).value, false);
      d.command == Some(e) && d.route == Some(action + EncodedArguments(args))
  {
    FragmentHasNoSeparators(action);
    var route := action + EncodedArguments(args);
    if args.Some? {
      JoinFree(args.value, "/", ':');
    }
    assert ':' !in route;
    assert LinkInteraction(e, action, args).value == e.name + ":" + route;
    SplitIdOnColon(e.name, route);
  }

  /** The full round trip: a button id built by `linkInteraction` with
      non-empty arguments free of `/` and `:` reaches the route handler of
      `action`, with the arguments as its variables, and no error reply. */
  lemma LinkThenHandleButton(m: CommandTable, e: Executor, action: string, args: Option<seq<string>>)
    requires e.Routing? && e.name in m && m[e.name] == e && ':' !in e.name
    requires ValidateFragment(action) && action in e.routes
    requires args.Some? ==> |args.value| > 0
    requires args.Some? ==> forall k :: 0 <= k < |args.value| ==>
      |args.value[k]| > 0 && '/' !in args.value[k] && ':' !in args.value[k]
    ensures LinkInteraction(e, action, args).Ok?
    ensures HandleButton(m, LinkInteraction(e, action, args).value, false)
      == ButtonDispatch(Some(e), Some(action + EncodedArguments(args)),
                        Some(RouteCall(action, e.routes[action], args.GetOr([]))), None)
  {
    LinkThenHandleButtonRoute(m, e, action, args);
    LinkThenButton(e, action, args);
  }
}

=== FILE: executor.dfy ===
/** Command executors (src/executor.ts). A plain executor is a named slash
    command whose button and autocomplete entry points are not implemented;
    a routing executor additionally keeps a table of named button routes and
    encodes/decodes button ids of the form `name:action/arg1/arg2`. */
module Executor {
  import opened Wrappers
  import opened Strings

  /** Identity of a route handler closure; what the handler does when it
      runs is outside the model. */
  type HandlerRef = nat

  datatype Executor =
    | Plain(name: string, description: string)
    | Routing(name: string, description: string, routes: map<string, HandlerRef>)

  /** The route handler a button click selects, with the variables it is
      invoked with. */
  datatype RouteCall = RouteCall(route: string, handler: HandlerRef, variables: seq<string>)

  // ---------------------------------------------------------------------------
  // Fragment validation

  /** Position of the first match of `/[^a-zA-Z0-9]/`, if any. */
  function FirstForbidden(s: string): (r: Option<nat>)
    ensures r.Some? ==> r.value < |s| && !IsAlnum(s[r.value])
    ensures r.Some? ==> forall k :: 0 <= k < r.value ==> IsAlnum(s[k])
    ensures r.None? ==> forall k :: 0 <= k < |s| ==> IsAlnum(s[k])
    decreases |s|
  {
    if |s| == 0 then None
    else if !IsAlnum(s[0]) then Some(0)
    else
      match FirstForbidden(s[1..])
      case None => None
      case Some(i) => Some(i + 1)
  }

  /** `validateFragment`: no character outside `[a-zA-Z0-9]` and not empty. */
  function ValidateFragment(s: string): (ok: bool)
    ensures ok <==> |s| > 0 && forall k :: 0 <= k < |s| ==> IsAlnum(s[k])
  {
    FirstForbidden(s).None? && |s| > 0
  }

  /** A valid fragment contains neither separator of a button id. */
  lemma FragmentHasNoSeparators(s: string)
    requires ValidateFragment(s)
    ensures '/' !in s && ':' !in s
  {
    assert forall k :: 0 <= k < |s| ==> s[k] != '/' && s[k] != ':';
  }

  // ---------------------------------------------------------------------------
  // Encoding

  /** The argument suffix of a button id: `/` followed by the joined
      arguments when an argument array is given (even an empty one). */
  function EncodedArguments(args: Option<seq<string>>): (text: string)
    ensures |text| > 0 <==> args.Some?
    ensures args.Some? ==> text[0] == '/'
  {
    if args.Some? then "/" + Join(args.value, "/") else ""
  }

  /** `linkInteraction`: the button id that routes back to `action`. */
  function LinkInteraction(e: Executor, action: string, args: Option<seq<string>>): (r: Result<string>)
    requires e.Routing?
    ensures r.Err? <==> !ValidateFragment(action)
    ensures r.Err? ==> r.error == action + " is not a valid action name"
    ensures r.Ok? && args.None? ==> r.value == e.name + ":" + action
    ensures r.Ok? && args == Some([]) ==> r.value == e.name + ":" + action + "/"
    ensures r.Ok? && args.Some? && |args.value| > 0 ==>
      r.value == e.name + ":" + Join([action] + args.value, "/")
  {
    if !ValidateFragment(action) then
      Err(action + " is not a valid action name")
    else
      var id := e.name + ":" + action + EncodedArguments(args);
      if args.Some? && |args.value| > 0 then
        JoinCons([action] + args.value, "/");
        assert ([action] + args.value)[1..] == args.value;
        Ok(id)
      else
        Ok(id)
  }

  // ---------------------------------------------------------------------------
  // Route table

  /** `route`: registers `handler` under `name`. */
  function Route(e: Executor, name: string, handler: HandlerRef): (r: Result<Executor>)
    requires e.Routing?
    ensures r.Ok? <==> ValidateFragment(name) && name !in e.routes
    ensures !ValidateFragment(name) ==> r == Err(name + " is not a valid interaction name")
    ensures ValidateFragment(name) && name in e.routes ==>
      r == Err("interaction " + name + " is already registered")
    ensures r.Ok? ==> r.value.Routing? && r.value.name == e.name && r.value.description == e.description
    ensures r.Ok? ==> r.value.routes.Keys == e.routes.Keys + {name} && r.value.routes[name] == handler
    ensures r.Ok? ==> forall k :: k in e.routes ==> r.value.routes[k] == e.routes[k]
  {
    if !ValidateFragment(name) then
      Err(name + " is not a valid interaction name")
    else if name in e.routes then
      Err("interaction " + name + " is already registered")
    else
      Ok(e.(routes := e.routes[name := handler]))
  }

  // ---------------------------------------------------------------------------
  // Decoding

  /** `button`: splits the route part of a button id on runs of `/`; the
      first piece names the route, the others are its variables. */
  function Button(e: Executor, id: string): (r: Result<RouteCall>)
    ensures e.Plain? ==> r == Err("this button is not implemented")
    ensures e.Routing? && (|id| == 0 || id[0] == '/') ==>
      r == Err("no interaction handler id was provided")
    ensures e.Routing? && |id| > 0 && id[0] != '/' ==>
      (r.Ok? <==> SplitRuns(id, '/')[0] in e.routes)
    ensures r.Ok? ==> e.Routing? && r.value.route in e.routes && r.value.handler == e.routes[r.value.route]
    ensures r.Ok? ==> [r.value.route] + r.value.variables == SplitRuns(id, '/')
    ensures r.Ok? ==> |r.value.route| > 0 && StartsWith(id, r.value.route)
    ensures r.Ok? ==> |r.value.route| == |id| || id[|r.value.route|] == '/'
    ensures r.Ok? ==> forall k :: 0 <= k < |r.value.variables| ==> '/' !in r.value.variables[k]
    ensures r.Ok? ==> (|r.value.variables| > 0 <==> '/' in id)
  {
    match e
    case Plain(_, _) => Err("this button is not implemented")
    case Routing(_, _, routes) =>
      var pieces := SplitRuns(id, '/');
      SplitRunsHead(id, '/');
      var name := pieces[0];
      if |name| == 0 then
        Err("no interaction handler id was provided")
      else if name !in routes then
        Err("invalid interaction handler id " + name)
      else
        assert [name] + pieces[1..] == pieces;
        Ok(RouteCall(name, routes[name], pieces[1..]))
  }

  // ---------------------------------------------------------------------------
  // Round trips

  /** An id built by `linkInteraction` is `name:` followed by a route part
      that `button` decodes into the action and its arguments, provided
      every argument is non-empty and free of `/`. */
  lemma {:induction false} LinkThenButton(e: Executor, action: string, args: Option<seq<string>>)
    requires e.Routing? && ValidateFragment(action) && action in e.routes
    requires args.Some? ==> |args.value| > 0
    requires args.Some? ==> forall k :: 0 <= k < |args.value| ==> |args.value[k]| > 0 && '/' !in args.value[k]
    ensures LinkInteraction(e, action, args) == Ok(e.name + ":" + action + EncodedArguments(args))
    ensures Button(e, action + EncodedArguments(args)) == Ok(RouteCall(action, e.routes[action], args.GetOr([])))
  {
    FragmentHasNoSeparators(action);
    var route := action + EncodedArguments(args);
    if args.Some? {
      var parts := [action] + args.value;
      JoinCons(parts, "/");
      assert parts[1..] == args.value;
      assert route == Join(parts, "/");
      JoinThenSplitRuns(parts, '/');
    } else {
      assert route == action;
      assert IndexOf(route, '/').None?;
    }
  }

  /** An empty argument array still encodes a trailing `/`, which `button`
      decodes as one empty variable rather than none. */
  lemma LinkEmptyArgsThenButton(e: Executor, action: string)
    requires e.Routing? && ValidateFragment(action) && action in e.routes
    ensures LinkInteraction(e, action, Some([])) == Ok(e.name + ":" + action + "/")
    ensures Button(e, action + "/") == Ok(RouteCall(action, e.routes[action], [""]))
  {
    FragmentHasNoSeparators(action);
    SplitRunsAfterFree(action, '/', "");
    assert action + "/" == action + ['/'] + "";
  }
}

=== FILE: logger.dfy ===
/** The logger (src/logger.ts): level filtering, the timestamp and line
    format, the console stream a level goes to, and the lazily created
    process-wide instance. Creating the log directory and file and writing
    to them are not part of this model; the text appended to the file is. */
module Logger {
  import opened Wrappers
  import opened Strings

  /** `LogLevel`, whose numeric values order the levels. */
  datatype LogLevel = INFO | WARN | ERROR {

    /** The enum's numeric value. */
    function Rank(): (rank: nat)
      ensures rank <= 2
    {
      match this
      case INFO => 0
      case WARN => 1
      case ERROR => 2
    }

    /** `LogLevel[level]`, the member's name. */
    function Name(): (name: string)
      ensures |name| > 0 && ']' !in name
    {
      match this
      case INFO => "INFO"
      case WARN => "WARN"
      case ERROR => "ERROR"
    }
  }

  /** The level a name denotes: the reverse of `Name`. */
  function LevelNamed(name: string): (level: Option<LogLevel>)
    ensures level.Some? ==> level.value.Name() == name
    ensures level.None? ==> name != INFO.Name() && name != WARN.Name() && name != ERROR.Name()
  {
    if name == "INFO" then Some(INFO)
    else if name == "WARN" then Some(WARN)
    else if name == "ERROR" then Some(ERROR)
    else None
  }

  /** Distinct levels have distinct numeric values, ordered INFO < WARN < ERROR. */
  lemma RankOrder(a: LogLevel, b: LogLevel)
    ensures a.Rank() == b.Rank() <==> a == b
    ensures a.Rank() < b.Rank() <==> (a == INFO && b != INFO) || (a == WARN && b == ERROR)
  {
  }

  /** Distinct levels have distinct names, and each name reads back as its level. */
  lemma NameThenLevelNamed(a: LogLevel, b: LogLevel)
    ensures LevelNamed(a.Name()) == Some(a)
    ensures a.Name() == b.Name() <==> a == b
  {
  }

  /** A message kept for the log, as the other modules produce them. */
  datatype LogEntry = LogEntry(level: LogLevel, message: string)

  // ---------------------------------------------------------------------------
  // The process-wide instance

  /** What the private constructor fixes: the directory, the level threshold
      read from the configuration, and the log file chosen at start-up. */
  datatype LoggerConfig = LoggerConfig(logDirectory: string, threshold: int, fileName: string)

  /** `Logger.logger`: the stored instance, or `created` when there is none
      yet, together with the slot's new content. */
  function Acquire(slot: Option<LoggerConfig>, created: LoggerConfig): (r: (LoggerConfig, Option<LoggerConfig>))
    ensures r.1 == Some(r.0)
    ensures slot.Some? ==> r.0 == slot.value
    ensures slot.None? ==> r.0 == created
  {
    match slot
    case Some(instance) => (instance, slot)
    case None => (created, Some(created))
  }

  /** Every access after the first returns the instance the first created,
      whatever a later construction would have produced. */
  lemma AcquireIsStable(slot: Option<LoggerConfig>, first: LoggerConfig, second: LoggerConfig)
    ensures var (a, after) := Acquire(slot, first);
      Acquire(after, second) == (a, after)
  {
  }

  // ---------------------------------------------------------------------------
  // Timestamp

  /** `s.slice(-k)`: the last `k` characters, or all of a shorter `s`.
      Since `-0` is `0`, `slice(-0)` keeps the whole string. */
  function SliceLast(s: string, k: nat): (r: string)
    ensures |r| == if k == 0 || |s| < k then |s| else k
    ensures r == s[|s| - |r|..]
  {
    if k == 0 || |s| < k then s else s[|s| - k..]
  }

  /** The last two digits of the decimal rendering of `n`. */
  lemma {:induction false} LastTwoDigits(n: nat)
    requires n >= 10
    ensures var s := NatToString(n);
      && s[|s| - 2] == DigitChar((n / 10) % 10)
      && s[|s| - 1] == DigitChar(n % 10)
  {
    var s := NatToString(n);
    assert s == NatToString(n / 10) + [DigitChar(n % 10)];
  }

  /** The value of the two-digit string with digits `tens` and `units`. */
  lemma TwoDigitsOf(tens: nat, units: nat)
    requires tens < 10 && units < 10
    ensures var s := [DigitChar(tens), DigitChar(units)];
      AllDigits(s) && DigitsValue(s) == 10 * tens + units
  {
    var s := [DigitChar(tens), DigitChar(units)];
    var first := [DigitChar(tens)];
    assert s[..1] == first && first[..0] == [];
    assert DigitsValue(first) == 10 * DigitsValue([]) + DigitValue(DigitChar(tens));
    assert DigitsValue(s) == 10 * DigitsValue(first) + DigitValue(DigitChar(units));
  }

  /** The last two decimal digits of `n` make up `n % 100`. */
  lemma LastTwoDigitsValue(n: nat)
    ensures 10 * ((n / 10) % 10) + n % 10 == n % 100
  {
    var q, r := n / 100, n % 100;
    assert n == 100 * q + r;
    assert n / 10 == 10 * q + r / 10;
    assert n % 10 == r % 10;
  }

  /** The last two characters of a string at least two long. */
  lemma SliceLastTwo(s: string)
    requires |s| >= 2
    ensures SliceLast(s, 2) == [s[|s| - 2], s[|s| - 1]]
  {
    var last := SliceLast(s, 2);
    assert last == s[|s| - 2..];
    assert last[0] == s[|s| - 2] && last[1] == s[|s| - 1];
  }

  /** `pad` of a single digit: a leading zero, then the digit. */
  lemma PadCharsOneDigit(n: nat)
    requires n < 10
    ensures SliceLast("0" + NatToString(n), 2) == [DigitChar((n / 10) % 10), DigitChar(n % 10)]
  {
    var t := NatToString(n);
    assert t == [DigitChar(n)];
    assert (n / 10) % 10 == 0 && n % 10 == n;
    var s := "0" + t;
    SliceLastTwo(s);
    assert s[0] == DigitChar(0) && s[1] == DigitChar(n);
  }

  /** `pad` of a larger number: its last two digits. */
  lemma PadCharsMoreDigits(n: nat)
    requires n >= 10
    ensures SliceLast("0" + NatToString(n), 2) == [DigitChar((n / 10) % 10), DigitChar(n % 10)]
  {
    var t := NatToString(n);
    var s := "0" + t;
    SliceLastTwo(s);
    LastTwoDigits(n);
    assert s[|s| - 2] == t[|t| - 2] && s[|s| - 1] == t[|t| - 1];
  }

  /** The two characters `pad` keeps. */
  lemma PadChars(n: nat)
    ensures SliceLast("0" + NatToString(n), 2) == [DigitChar((n / 10) % 10), DigitChar(n % 10)]
  {
    if n < 10 {
      PadCharsOneDigit(n);
    } else {
      PadCharsMoreDigits(n);
    }
  }

  /** `pad`: the last two characters of `"0" + n`, so one digit gains a
      leading zero and larger numbers keep their last two digits. */
  function Pad(n: nat): (r: string)
    ensures |r| == 2 && AllDigits(r)
    ensures DigitsValue(r) == n % 100
    ensures n < 10 ==> r == ['0', DigitChar(n)]
  {
    var tens, units := (n / 10) % 10, n % 10;
    PadChars(n);
    TwoDigitsOf(tens, units);
    LastTwoDigitsValue(n);
    SliceLast("0" + NatToString(n), 2)
  }

  /** The clock fields `createLogTimestamp` reads; `month` counts from 0. */
  datatype Clock = Clock(hours: nat, minutes: nat, seconds: nat, date: nat, month: nat)

  /** Five two-character fields laid out as `aa:bb:cc dd/ee`. */
  function Layout(a: string, b: string, c: string, d: string, e: string): (ts: string)
    requires |a| == 2 && |b| == 2 && |c| == 2 && |d| == 2 && |e| == 2
    ensures |ts| == 14
    ensures ts[2] == ':' && ts[5] == ':' && ts[8] == ' ' && ts[11] == '/'
    ensures ts[0..2] == a && ts[3..5] == b && ts[6..8] == c && ts[9..11] == d && ts[12..14] == e
  {
    a + ":" + b + ":" + c + " " + d + "/" + e
  }

  /** `createLogTimestamp`: `HH:MM:SS DD/MM`, with the month counted from 1. */
  function LogTimestamp(c: Clock): (ts: string)
    ensures |ts| == 14
    ensures ts[2] == ':' && ts[5] == ':' && ts[8] == ' ' && ts[11] == '/'
  {
    Layout(Pad(c.hours), Pad(c.minutes), Pad(c.seconds), Pad(c.date), Pad(c.month + 1))
  }

  /** The separators sit at fixed positions, and every field reads back as
      its clock value (modulo 100, which leaves every real clock value
      unchanged). */
  lemma TimestampFields(c: Clock)
    ensures var ts := LogTimestamp(c);
      && ts[2] == ':' && ts[5] == ':' && ts[8] == ' ' && ts[11] == '/'
      && AllDigits(ts[0..2]) && DigitsValue(ts[0..2]) == c.hours % 100
      && AllDigits(ts[3..5]) && DigitsValue(ts[3..5]) == c.minutes % 100
      && AllDigits(ts[6..8]) && DigitsValue(ts[6..8]) == c.seconds % 100
      && AllDigits(ts[9..11]) && DigitsValue(ts[9..11]) == c.date % 100
      && AllDigits(ts[12..14]) && DigitsValue(ts[12..14]) == (c.month + 1) % 100
  {
  }

  // ---------------------------------------------------------------------------
  // Emitting a message

  /** The console method a level is printed with. */
  datatype Console = ConsoleError | ConsoleWarn | ConsoleLog

  function ConsoleFor(level: LogLevel): (console: Console)
    ensures console == ConsoleError <==> level == ERROR
    ensures console == ConsoleWarn <==> level == WARN
  {
    match level
    case ERROR => ConsoleError
    case WARN => ConsoleWarn
    case INFO => ConsoleLog
  }

  /** What one `log` call emits: the console line and the text appended to
      the log file. */
  datatype Emission = Emission(console: Console, line: string, fileText: string)

  /** The formatted message `[timestamp][LEVEL] message`. */
  function FormatLine(timestamp: string, level: LogLevel, message: string): (line: string)
    ensures |line| == |timestamp| + |level.Name()| + |message| + 5
    ensures line[0] == '[' && line[|line| - |message|..] == message
  {
    "[" + timestamp + "][" + level.Name() + "] " + message
  }

  /** Splits a formatted line back into its timestamp, level and message. */
  function ParseLine(line: string): (r: Option<(string, LogLevel, string)>)
    ensures r.Some? ==> |r.value.0| == 14
  {
    if |line| < 17 || line[0] != '[' || line[15..17] != "][" then None
    else
      var rest := line[17..];
      match IndexOf(rest, ']')
      case None => None
      case Some(i) =>
        if i + 1 >= |rest| || rest[i + 1] != ' ' then None
        else
          match LevelNamed(rest[..i])
          case None => None
          case Some(level) => Some((line[1..15], level, rest[i + 2..]))
  }

  /** Where the parts of a formatted line sit. */
  lemma FormatLineShape(timestamp: string, level: LogLevel, message: string)
    requires |timestamp| == 14
    ensures var line := FormatLine(timestamp, level, message);
      && |line| >= 17 && line[0] == '[' && line[1..15] == timestamp && line[15..17] == "]["
      && line[17..] == level.Name() + [']'] + (" " + message)
  {
    var line := FormatLine(timestamp, level, message);
    assert line == ("[" + timestamp + "][") + (level.Name() + [']'] + (" " + message));
  }

  /** Formatting loses nothing: the timestamp, the level and the message
      can be read back from the line. */
  lemma FormatThenParse(timestamp: string, level: LogLevel, message: string)
    requires |timestamp| == 14
    ensures ParseLine(FormatLine(timestamp, level, message)) == Some((timestamp, level, message))
  {
    var line := FormatLine(timestamp, level, message);
    var name := level.Name();
    var rest := name + [']'] + (" " + message);
    FormatLineShape(timestamp, level, message);
    IndexOfAfterFree(name, ']', " " + message);
    assert rest[..|name|] == name;
    assert rest[|name| + 1] == ' ';
    assert rest[|name| + 2..] == message;
  }

  /** `log`: nothing below the threshold; otherwise the formatted line on
      the level's console stream and, followed by a newline, in the file. */
  function Log(threshold: int, clock: Clock, level: LogLevel, message: string): (r: Option<Emission>)
    ensures r.None? <==> level.Rank() < threshold
    ensures r.Some? ==> r.value.console == ConsoleFor(level)
    ensures r.Some? ==> r.value.fileText == r.value.line + "\n"
    ensures r.Some? ==> ParseLine(r.value.line) == Some((LogTimestamp(clock), level, message))
  {
    if level.Rank() < threshold then None
    else
      var line := FormatLine(LogTimestamp(clock), level, message);
      FormatThenParse(LogTimestamp(clock), level, message);
      Some(Emission(ConsoleFor(level), line, line + "\n"))
  }

  /** The threshold passes every level at least as severe as one it passes. */
  lemma LogThresholdMonotone(threshold: int, clock: Clock, lower: LogLevel, higher: LogLevel, message: string)
    requires lower.Rank() <= higher.Rank()
    ensures Log(threshold, clock, lower, message).Some? ==> Log(threshold, clock, higher, message).Some?
  {
  }

  /** `error`: logs at level ERROR, on the error stream. */
  function Error(threshold: int, clock: Clock, message: string): (r: Option<Emission>)
    ensures r.None? <==> threshold > 2
    ensures r.Some? ==> r.value.console == ConsoleError
    ensures r.Some? ==> ParseLine(r.value.line) == Some((LogTimestamp(clock), ERROR, message))
  {
    Log(threshold, clock, ERROR, message)
  }

  /** `warning`: logs at level WARN, on the warning stream. */
  function Warning(threshold: int, clock: Clock, message: string): (r: Option<Emission>)
    ensures r.None? <==> threshold > 1
    ensures r.Some? ==> r.value.console == ConsoleWarn
    ensures r.Some? ==> ParseLine(r.value.line) == Some((LogTimestamp(clock), WARN, message))
  {
    Log(threshold, clock, WARN, message)
  }

  /** `info`: logs at level INFO, on the standard stream. */
  function Info(threshold: int, clock: Clock, message: string): (r: Option<Emission>)
    ensures r.None? <==> threshold > 0
    ensures r.Some? ==> r.value.console == ConsoleLog
    ensures r.Some? ==> ParseLine(r.value.line) == Some((LogTimestamp(clock), INFO, message))
  {
    Log(threshold, clock, INFO, message)
  }
}

=== FILE: service.dfy ===
/** The dependency-injection registry (src/service.ts). Decorating a class
    as a service constructs one instance and appends it to a process-wide
    list; decorating a property as autowired binds it to the first listed
    instance that a name hint, a class hint or the property's declared type
    selects. Classes are identities with ancestor sets, so that `instanceof`
    is set membership; log messages are returned as entries. */
module Service {
  import opened Wrappers
  import opened Strings
  import opened Logger

  type ClassId = nat

  /** A service class: its identity, its `name`, and the identities of the
      classes it extends. */
  datatype ServiceClass = ServiceClass(id: ClassId, name: string, ancestors: set<ClassId>)

  /** A class named by a hint or by a property's declared type. */
  datatype ClassRef = ClassRef(id: ClassId, name: string)

  /** The instance constructed for a service class. */
  datatype Instance = Instance(cls: ServiceClass)

  type Registry = seq<Instance>

  /** `x instanceof k`. */
  predicate InstanceOf(x: Instance, k: ClassId) {
    x.cls.id == k || k in x.cls.ancestors
  }

  // ---------------------------------------------------------------------------
  // Registration

  function AmbiguityMessage(added: ServiceClass, existing: ServiceClass): string {
    "service ambiguity " + added.name + " extends " + existing.name
  }

  /** Every registered service the new instance is an instance of is reported in `w`. */
  predicate ReportsEachAmbiguity(services: Registry, cls: ServiceClass, w: seq<LogEntry>) {
    forall k :: 0 <= k < |services| && InstanceOf(Instance(cls), services[k].cls.id) ==>
      LogEntry(WARN, AmbiguityMessage(cls, services[k].cls)) in w
  }

  /** Every entry of `w` reports a registered service the new instance is an instance of. */
  predicate ReportsOnlyAmbiguities(services: Registry, cls: ServiceClass, w: seq<LogEntry>) {
    forall e :: e in w ==>
      exists k :: (0 <= k < |services| && InstanceOf(Instance(cls), services[k].cls.id)
                   && e == LogEntry(WARN, AmbiguityMessage(cls, services[k].cls)))
  }

  /** One warning for each registered service, in order, whose class the new
      instance is an instance of. */
  function AmbiguityWarnings(services: Registry, cls: ServiceClass): (w: seq<LogEntry>)
    ensures |w| <= |services|
    ensures forall k :: 0 <= k < |w| ==> w[k].level == WARN
    ensures |w| == 0 <==> forall k :: 0 <= k < |services| ==> !InstanceOf(Instance(cls), services[k].cls.id)
    ensures ReportsEachAmbiguity(services, cls, w) && ReportsOnlyAmbiguities(services, cls, w)
    decreases |services|
  {
    if |services| == 0 then []
    else
      var rest := AmbiguityWarnings(services[1..], cls);
      assert forall k :: 1 <= k < |services| ==> services[k] == services[1..][k - 1];
      if InstanceOf(Instance(cls), services[0].cls.id) then
        [LogEntry(WARN, AmbiguityMessage(cls, services[0].cls))] + rest
      else
        rest
  }

  /** Registering after one more service adds at most one warning, at the end. */
  lemma {:induction false} AmbiguityWarningsSnoc(services: Registry, last: Instance, cls: ServiceClass)
    ensures AmbiguityWarnings(services + [last], cls) ==
      AmbiguityWarnings(services, cls)
      + (if InstanceOf(Instance(cls), last.cls.id) then [LogEntry(WARN, AmbiguityMessage(cls, last.cls))] else [])
    decreases |services|
  {
    if |services| > 0 {
      assert (services + [last])[1..] == services[1..] + [last];
      AmbiguityWarningsSnoc(services[1..], last, cls);
    } else {
      assert (services + [last])[1..] == [];
    }
  }

  /** The outcome of decorating a class: the new registry and the log. */
  datatype Registration = Registration(services: Registry, log: seq<LogEntry>)

  /** `Service()`: an ambiguity only warns; the new instance is always
      appended, after every earlier one. */
  function Register(services: Registry, cls: ServiceClass): (r: Registration)
    ensures |r.services| == |services| + 1
    ensures r.services[..|services|] == services && r.services[|services|] == Instance(cls)
    ensures |r.log| >= 1 && r.log[0] == LogEntry(INFO, "registering service " + cls.name)
    ensures forall k :: 1 <= k < |r.log| ==> r.log[k].level == WARN
    ensures |r.log| > 1 <==> exists k :: 0 <= k < |services| && InstanceOf(Instance(cls), services[k].cls.id)
    ensures r.log[1..] == AmbiguityWarnings(services, cls)
  {
    var warnings := AmbiguityWarnings(services, cls);
    var log := [LogEntry(INFO, "registering service " + cls.name)] + warnings;
    assert forall k :: 1 <= k < |log| ==> log[k] == warnings[k - 1];
    Registration(services + [Instance(cls)], log)
  }

  /** Appending the instance of the last class to the instances of the
      earlier ones gives the instances of all of them, in order. */
  lemma InstancesAppend(classes: seq<ServiceClass>, before: Registry, after: Registry)
    requires |classes| > 0 && |before| == |classes| - 1
    requires forall k :: 0 <= k < |before| ==> before[k] == Instance(classes[..|classes| - 1][k])
    requires |after| == |classes| && after[..|before|] == before && after[|before|] == Instance(classes[|before|])
    ensures forall k :: 0 <= k < |classes| ==> after[k] == Instance(classes[k])
  {
    forall k | 0 <= k < |before|
      ensures after[k] == Instance(classes[k])
    {
      assert after[k] == after[..|before|][k];
    }
  }


  function RegisterAll(classes: seq<ServiceClass>): (r: Registry)
    ensures |r| == |classes|
    ensures forall k :: 0 <= k < |classes| ==> r[k] == Instance(classes[k])
    decreases |classes|
  {
    if |classes| == 0 then []
    else
      var before := RegisterAll(classes[..|classes| - 1]);
      var after := Register(before, classes[|classes| - 1]).services;
      InstancesAppend(classes, before, after);
      after
  }

  // ---------------------------------------------------------------------------
  // Autowiring

  /** A `tryAutowire` filter. */
  datatype Filter = ByName(hint: string) | ByClass(target: ClassRef)

  /** A name hint matches when it occurs in the lower-cased class name; the
      hint itself is compared as given. */
  predicate Matches(f: Filter, x: Instance) {
    match f
    case ByName(hint) => IndexOfText(Lower(x.cls.name), hint, 0).Some?
    case ByClass(target) => InstanceOf(x, target.id)
  }

  /** A name filter selects an instance exactly when the hint occurs
      somewhere in the lower-cased class name. */
  lemma MatchesByName(hint: string, x: Instance)
    ensures Matches(ByName(hint), x) <==> exists i: nat :: OccursAt(hint, Lower(x.cls.name), i)
  {
    var r := IndexOfText(Lower(x.cls.name), hint, 0);
    if r.Some? {
      assert OccursAt(hint, Lower(x.cls.name), r.value);
    }
  }

  /** A class filter selects an instance of the class itself and of every
      class extending it, and nothing unrelated. */
  lemma MatchesByClass(target: ClassRef, c: ServiceClass)
    ensures c.id == target.id ==> Matches(ByClass(target), Instance(c))
    ensures target.id in c.ancestors ==> Matches(ByClass(target), Instance(c))
    ensures c.id != target.id && target.id !in c.ancestors ==> !Matches(ByClass(target), Instance(c))
  {
  }

  /** No registered service passes the filter. */
  predicate Misses(services: Registry, f: Filter) {
    forall k :: 0 <= k < |services| ==> !Matches(f, services[k])
  }

  /** The position of the first service at or after `from` that passes. */
  function FirstMatch(services: Registry, f: Filter, from: nat): (r: Option<nat>)
    ensures r.Some? ==> from <= r.value < |services| && Matches(f, services[r.value])
    ensures r.Some? ==> forall k :: from <= k < r.value ==> !Matches(f, services[k])
    ensures r.None? <==> forall k :: from <= k < |services| ==> !Matches(f, services[k])
    decreases |services| - from
  {
    if from >= |services| then None
    else if Matches(f, services[from]) then Some(from)
    else FirstMatch(services, f, from + 1)
  }

  /** `AutowiredParameters`. */
  datatype AutowiredParameters = AutowiredParameters(cls: Option<ClassRef>, name: Option<string>)

  /** The name filter, when a non-empty name is given (an empty one is falsy). */
  function NameFilter(params: Option<AutowiredParameters>): (f: Option<Filter>)
    ensures f.Some? <==> params.Some? && params.value.name.Some? && params.value.name.value != ""
    ensures f.Some? ==> f.value == ByName(params.value.name.value)
  {
    if params.Some? && params.value.name.Some? && |params.value.name.value| > 0 then
      Some(ByName(params.value.name.value))
    else
      None
  }

  /** The class filter, when a class is given. */
  function ClassFilter(params: Option<AutowiredParameters>): (f: Option<Filter>)
    ensures f.Some? <==> params.Some? && params.value.cls.Some?
    ensures f.Some? ==> f.value == ByClass(params.value.cls.value)
  {
    if params.Some? && params.value.cls.Some? then Some(ByClass(params.value.cls.value)) else None
  }

  /** The given filter is absent or selects nothing. */
  predicate Skipped(services: Registry, f: Option<Filter>) {
    f.None? || Misses(services, f.value)
  }

  function NameMissMessage(hint: string): string {
    "no services matching name = '" + hint + "' were found"
  }

  function ClassMissMessage(hint: ClassRef): string {
    "no services matching class = '" + hint.name + "' were found"
  }

  function UnresolvedMessage(propertyType: ClassRef): string {
    "service " + propertyType.name + " cannot be initialized correctly, make sure to import service before using it"
  }

  /** The property map after an `Autowired` decoration, or the error it
      throws, and the log written on the way. */
  datatype Wiring = Wiring(target: Result<map<string, Instance>>, log: seq<LogEntry>)

  /** The successful end of `tryAutowire`: `member` set to `s`. */
  function Bind(s: Instance, member: string, target: map<string, Instance>, log: seq<LogEntry>): (w: Wiring)
    ensures w.target.Ok? && member in w.target.value && w.target.value[member] == s
    ensures forall m :: m != member ==> (m in w.target.value <==> m in target)
    ensures forall m :: m != member && m in target ==> w.target.value[m] == target[m]
    ensures |w.log| == |log| + 1 && w.log[..|log|] == log
    ensures w.log[|log|] == LogEntry(INFO, "autowired service " + s.cls.name + " to property " + member)
  {
    Wiring(Ok(target[member := s]), log + [LogEntry(INFO, "autowired service " + s.cls.name + " to property " + member)])
  }

  /** The last stage: the first service that is an instance of the declared
      type, or the error. `log` is what earlier stages wrote. */
  function ResolveByType(
    services: Registry, propertyType: ClassRef, member: string, target: map<string, Instance>,
    log: seq<LogEntry>): (w: Wiring)
    ensures w.target.Err? <==> Misses(services, ByClass(propertyType))
    ensures w.target.Err? ==> w == Wiring(Err(UnresolvedMessage(propertyType)), log)
    ensures w.target.Ok? ==>
      w == Bind(services[FirstMatch(services, ByClass(propertyType), 0).value], member, target, log)
  {
    match FirstMatch(services, ByClass(propertyType), 0)
    case Some(i) => Bind(services[i], member, target, log)
    case None => Wiring(Err(UnresolvedMessage(propertyType)), log)
  }

  /** The declared-type stage only appends to the log it is given. */
  lemma ResolveByTypeAfter(
    services: Registry, propertyType: ClassRef, member: string, target: map<string, Instance>,
    log: seq<LogEntry>)
    ensures var alone := ResolveByType(services, propertyType, member, target, []);
      ResolveByType(services, propertyType, member, target, log) == Wiring(alone.target, log + alone.log)
  {
    match FirstMatch(services, ByClass(propertyType), 0)
    case Some(i) =>
      var entry := LogEntry(INFO, "autowired service " + services[i].cls.name + " to property " + member);
      assert [] + [entry] == [entry];
    case None =>
      assert log + [] == log;
  }

  /** The class-hint stage, falling through to the declared type with a
      warning when the hint selects nothing. */
  function ResolveByClass(
    services: Registry, hint: Option<ClassRef>, propertyType: ClassRef, member: string,
    target: map<string, Instance>, log: seq<LogEntry>): (w: Wiring)
    ensures hint.None? ==> w == ResolveByType(services, propertyType, member, target, log)
    ensures hint.Some? && Misses(services, ByClass(hint.value)) ==>
      w == ResolveByType(services, propertyType, member, target, log + [LogEntry(WARN, ClassMissMessage(hint.value))])
    ensures hint.Some? && !Misses(services, ByClass(hint.value)) ==>
      w == Bind(services[FirstMatch(services, ByClass(hint.value), 0).value], member, target, log)
  {
    if hint.None? then
      ResolveByType(services, propertyType, member, target, log)
    else
      match FirstMatch(services, ByClass(hint.value), 0)
      case Some(i) => Bind(services[i], member, target, log)
      case None =>
        ResolveByType(services, propertyType, member, target, log + [LogEntry(WARN, ClassMissMessage(hint.value))])
  }

  /** The class-hint stage only appends to the log it is given. */
  lemma ResolveByClassAfter(
    services: Registry, hint: Option<ClassRef>, propertyType: ClassRef, member: string,
    target: map<string, Instance>, log: seq<LogEntry>)
    ensures var alone := ResolveByClass(services, hint, propertyType, member, target, []);
      ResolveByClass(services, hint, propertyType, member, target, log) == Wiring(alone.target, log + alone.log)
  {
    if hint.None? {
      ResolveByTypeAfter(services, propertyType, member, target, log);
    } else if !Misses(services, ByClass(hint.value)) {
      var i := FirstMatch(services, ByClass(hint.value), 0).value;
      var entry := LogEntry(INFO, "autowired service " + services[i].cls.name + " to property " + member);
      assert [] + [entry] == [entry];
    } else {
      var warn := [LogEntry(WARN, ClassMissMessage(hint.value))];
      ResolveByTypeAfter(services, propertyType, member, target, log + warn);
      ResolveByTypeAfter(services, propertyType, member, target, [] + warn);
      var alone := ResolveByType(services, propertyType, member, target, []);
      assert (log + warn) + alone.log == log + (([] + warn) + alone.log);
    }
  }

  /** The class hint of the parameters, if any. */
  function ClassHint(params: Option<AutowiredParameters>): (hint: Option<ClassRef>)
    ensures hint.Some? <==> ClassFilter(params).Some?
    ensures hint.Some? ==> ClassFilter(params) == Some(ByClass(hint.value))
  {
    if params.Some? then params.value.cls else None
  }

  /** Every entry is a warning. */
  predicate AllWarnings(log: seq<LogEntry>) {
    forall k :: 0 <= k < |log| ==> log[k].level == WARN
  }

  /** The warning for a name hint that selected nothing, if one was given. */
  function NameMissLog(params: Option<AutowiredParameters>): (log: seq<LogEntry>)
    ensures |log| <= 1 && AllWarnings(log)
    ensures |log| == 1 <==> NameFilter(params).Some?
  {
    if NameFilter(params).Some? then [LogEntry(WARN, NameMissMessage(NameFilter(params).value.hint))] else []
  }

  /** The warning for a class hint that selected nothing, if one was given. */
  function ClassMissLog(params: Option<AutowiredParameters>): (log: seq<LogEntry>)
    ensures |log| <= 1 && AllWarnings(log)
    ensures |log| == 1 <==> ClassFilter(params).Some?
  {
    if ClassHint(params).Some? then [LogEntry(WARN, ClassMissMessage(ClassHint(params).value))] else []
  }

  /** `Autowired(parameters)` applied to `member` of `target`, whose
      declared type is `propertyType`: the name hint, then the class hint,
      then the declared type. */
  function Autowire(
    services: Registry, params: Option<AutowiredParameters>, propertyType: ClassRef,
    member: string, target: map<string, Instance>): (w: Wiring)
    // It fails only when every filter it tries selects nothing.
    ensures w.target.Err? <==>
      && Skipped(services, NameFilter(params))
      && Skipped(services, ClassFilter(params))
      && Misses(services, ByClass(propertyType))
    ensures w.target.Err? ==> w.target.error == UnresolvedMessage(propertyType)
  {
    var nameFilter := NameFilter(params);
    if nameFilter.Some? && FirstMatch(services, nameFilter.value, 0).Some? then
      Bind(services[FirstMatch(services, nameFilter.value, 0).value], member, target, [])
    else
      ResolveByClass(services, ClassHint(params), propertyType, member, target, NameMissLog(params))
  }

  /** A name hint that selects something wins, with its first match, and
      nothing is logged before the binding. */
  lemma NameHintWins(
    services: Registry, params: Option<AutowiredParameters>, propertyType: ClassRef,
    member: string, target: map<string, Instance>)
    requires NameFilter(params).Some? && !Misses(services, NameFilter(params).value)
    ensures Autowire(services, params, propertyType, member, target)
         == Bind(services[FirstMatch(services, NameFilter(params).value, 0).value], member, target, [])
  {
  }

  /** Otherwise a class hint that selects something wins, with its first
      match, after the name hint's warning. */
  lemma ClassHintWins(
    services: Registry, params: Option<AutowiredParameters>, propertyType: ClassRef,
    member: string, target: map<string, Instance>)
    requires Skipped(services, NameFilter(params))
    requires ClassFilter(params).Some? && !Misses(services, ClassFilter(params).value)
    ensures Autowire(services, params, propertyType, member, target)
         == Bind(services[FirstMatch(services, ClassFilter(params).value, 0).value], member, target, NameMissLog(params))
  {
  }

  /** When neither hint selects anything, the declared type decides, after
      the warnings for the hints that were given. */
  lemma DeclaredTypeDecides(
    services: Registry, params: Option<AutowiredParameters>, propertyType: ClassRef,
    member: string, target: map<string, Instance>)
    requires Skipped(services, NameFilter(params)) && Skipped(services, ClassFilter(params))
    ensures Autowire(services, params, propertyType, member, target)
         == ResolveByType(services, propertyType, member, target, NameMissLog(params) + ClassMissLog(params))
  {
    var hint := ClassHint(params);
    var afterName := NameMissLog(params);
    assert !(NameFilter(params).Some? && FirstMatch(services, NameFilter(params).value, 0).Some?);
    assert Autowire(services, params, propertyType, member, target)
        == ResolveByClass(services, hint, propertyType, member, target, afterName);
    if hint.Some? {
      assert FirstMatch(services, ByClass(hint.value), 0).None?;
      assert ClassMissLog(params) == [LogEntry(WARN, ClassMissMessage(hint.value))];
    } else {
      assert afterName + ClassMissLog(params) == afterName;
    }
  }

  /** On success only `member` changes, and it is bound to a registered
      service that one of the filters selects. */
  lemma AutowireSetsOnlyMember(
    services: Registry, params: Option<AutowiredParameters>, propertyType: ClassRef,
    member: string, target: map<string, Instance>)
    ensures var w := Autowire(services, params, propertyType, member, target);
      w.target.Ok? ==>
      && member in w.target.value && w.target.value[member] in services
      && (forall m :: m != member ==> (m in w.target.value <==> m in target))
      && (forall m :: m != member && m in target ==> w.target.value[m] == target[m])
      && var s := w.target.value[member];
         || (NameFilter(params).Some? && Matches(NameFilter(params).value, s))
         || (ClassFilter(params).Some? && Matches(ClassFilter(params).value, s))
         || InstanceOf(s, propertyType.id)
  {
    if !Skipped(services, NameFilter(params)) {
      NameHintWins(services, params, propertyType, member, target);
    } else if !Skipped(services, ClassFilter(params)) {
      ClassHintWins(services, params, propertyType, member, target);
    } else {
      DeclaredTypeDecides(services, params, propertyType, member, target);
    }
  }

  /** Warnings only, followed by one INFO entry exactly when a service was
      bound. */
  predicate WellLogged(w: Wiring) {
    && (w.target.Err? ==> AllWarnings(w.log))
    && (w.target.Ok? ==> |w.log| >= 1 && w.log[|w.log| - 1].level == INFO && AllWarnings(w.log[..|w.log| - 1]))
  }

  /** A binding after warnings only is well logged. */
  lemma BindWellLogged(s: Instance, member: string, target: map<string, Instance>, log: seq<LogEntry>)
    requires AllWarnings(log)
    ensures WellLogged(Bind(s, member, target, log))
  {
    var w := Bind(s, member, target, log);
    assert w.log[..|w.log| - 1] == log;
  }

  /** The declared-type stage after warnings only is well logged. */
  lemma ResolveByTypeWellLogged(
    services: Registry, propertyType: ClassRef, member: string, target: map<string, Instance>,
    log: seq<LogEntry>)
    requires AllWarnings(log)
    ensures WellLogged(ResolveByType(services, propertyType, member, target, log))
  {
    match FirstMatch(services, ByClass(propertyType), 0)
    case Some(i) => BindWellLogged(services[i], member, target, log);
    case None =>
  }

  /** The log holds warnings for missed hints, then one entry for the
      binding when there is one; autowiring never logs an error. */
  lemma AutowireLogLevels(
    services: Registry, params: Option<AutowiredParameters>, propertyType: ClassRef,
    member: string, target: map<string, Instance>)
    ensures WellLogged(Autowire(services, params, propertyType, member, target))
  {
    if !Skipped(services, NameFilter(params)) {
      NameHintWins(services, params, propertyType, member, target);
      BindWellLogged(services[FirstMatch(services, NameFilter(params).value, 0).value], member, target, []);
    } else if !Skipped(services, ClassFilter(params)) {
      ClassHintWins(services, params, propertyType, member, target);
      BindWellLogged(services[FirstMatch(services, ClassFilter(params).value, 0).value], member, target, NameMissLog(params));
    } else {
      var warnings := NameMissLog(params) + ClassMissLog(params);
      assert AllWarnings(warnings);
      DeclaredTypeDecides(services, params, propertyType, member, target);
      ResolveByTypeWellLogged(services, propertyType, member, target, warnings);
    }
  }

  // ---------------------------------------------------------------------------
  // Resolution order

  /** Once the name hint selects a service, the class hint and the declared
      type are never consulted. */
  lemma NameHintDecides(
    services: Registry, hint: string, cls: Option<ClassRef>, otherCls: Option<ClassRef>,
    propertyType: ClassRef, otherType: ClassRef, member: string, target: map<string, Instance>)
    requires hint != "" && !Misses(services, ByName(hint))
    ensures Autowire(services, Some(AutowiredParameters(cls, Some(hint))), propertyType, member, target)
         == Autowire(services, Some(AutowiredParameters(otherCls, Some(hint))), otherType, member, target)
  {
    NameHintWins(services, Some(AutowiredParameters(cls, Some(hint))), propertyType, member, target);
    NameHintWins(services, Some(AutowiredParameters(otherCls, Some(hint))), otherType, member, target);
  }

  /** A name hint that selects nothing only warns; resolution then proceeds
      as if it had not been given. */
  lemma NameMissFallsThrough(
    services: Registry, hint: string, cls: Option<ClassRef>,
    propertyType: ClassRef, member: string, target: map<string, Instance>)
    requires hint != "" && Misses(services, ByName(hint))
    ensures var w := Autowire(services, Some(AutowiredParameters(cls, Some(hint))), propertyType, member, target);
      var without := Autowire(services, Some(AutowiredParameters(cls, None)), propertyType, member, target);
      w.target == without.target && w.log == [LogEntry(WARN, NameMissMessage(hint))] + without.log
  {
    var withHint := Some(AutowiredParameters(cls, Some(hint)));
    var noHint := Some(AutowiredParameters(cls, None));
    var warn := [LogEntry(WARN, NameMissMessage(hint))];
    assert FirstMatch(services, ByName(hint), 0).None?;
    assert NameMissLog(withHint) == warn && NameMissLog(noHint) == [];
    assert ClassHint(withHint) == ClassHint(noHint) == cls;
    ResolveByClassAfter(services, cls, propertyType, member, target, warn);
  }

  /** A class hint that selects nothing only warns; the declared type then
      decides, as if no parameters had been given. */
  lemma ClassMissFallsThrough(
    services: Registry, cls: ClassRef, propertyType: ClassRef, member: string, target: map<string, Instance>)
    requires Misses(services, ByClass(cls))
    ensures var w := Autowire(services, Some(AutowiredParameters(Some(cls), None)), propertyType, member, target);
      var without := Autowire(services, None, propertyType, member, target);
      w.target == without.target && w.log == [LogEntry(WARN, ClassMissMessage(cls))] + without.log
  {
    var warn := [LogEntry(WARN, ClassMissMessage(cls))];
    var params := Some(AutowiredParameters(Some(cls), None));
    assert NameMissLog(params) + ClassMissLog(params) == warn;
    assert NameMissLog(None) + ClassMissLog(None) == [];
    DeclaredTypeDecides(services, params, propertyType, member, target);
    DeclaredTypeDecides(services, None, propertyType, member, target);
    ResolveByTypeAfter(services, propertyType, member, target, warn);
    ResolveByTypeAfter(services, propertyType, member, target, []);
  }

  /** An empty name is falsy: it is ignored, not searched for. */
  lemma EmptyNameIgnored(
    services: Registry, cls: Option<ClassRef>, propertyType: ClassRef, member: string, target: map<string, Instance>)
    ensures Autowire(services, Some(AutowiredParameters(cls, Some(""))), propertyType, member, target)
         == Autowire(services, Some(AutowiredParameters(cls, None)), propertyType, member, target)
  {
  }

  /** An occurrence of `pat` in `s` puts each character of `pat` in place. */
  lemma OccurrenceChar(pat: string, s: string, i: nat, j: nat)
    requires j < |pat|
    ensures OccursAt(pat, s, i) ==> i + j < |s| && s[i + j] == pat[j]
  {
    if OccursAt(pat, s, i) {
      assert s[i..i + |pat|][j] == s[i + j];
    }
  }

  /** The class name is lower-cased but the hint is not, so a hint holding
      an upper-case letter selects no service at all. */
  lemma UpperCaseHintNeverMatches(hint: string, j: nat, x: Instance)
    requires j < |hint| && IsUpper(hint[j])
    ensures !Matches(ByName(hint), x)
  {
    var lowered := Lower(x.cls.name);
    forall i: nat
      ensures !OccursAt(hint, lowered, i)
    {
      OccurrenceChar(hint, lowered, i, j);
    }
  }
}

=== FILE: skip.dfy ===
/** The `skip` slash command (src/commands/skip.ts): a decision tree over the
    current song, the invoking member's voice channel and privileges, and the
    outcome of a skip vote. The playlist and database services are not part
    of this model; what their calls return is an input, and the calls the
    command makes on them are part of the outcome. */
module Skip {
  import opened Wrappers
  import opened Strings
  import opened Util

  /** The stored user record the command consults. */
  datatype UserRecord = UserRecord(canForceSkip: bool)

  /** The channel the command was used in. */
  datatype Channel = OtherChannel | VoiceChannel(members: set<string>)

  /** What `voteSkip` reports after counting the new vote. */
  datatype VoteTally = VoteTally(voteCount: nat, userCount: nat)

  /** A call the command makes on the database or the playlist service. */
  datatype ServiceCall = FindUser(userId: string) | VoteSkip(userId: string) | SkipCurrentSong

  /** The message the command answers with. `Rejection` is an ephemeral
      reply; `Announcement` carries a song card; `Progress` is the vote
      count edited into the deferred reply. */
  datatype Answer = Rejection(content: string) | Announcement(card: SongCard) | Progress(content: string)

  /** `deferred` is set when the command deferred its reply, so that the
      answer edits that reply instead of sending a new one. */
  datatype Outcome = Outcome(calls: seq<ServiceCall>, deferred: bool, answer: Answer)

  const NOTHING_PLAYING := "Nothing is being played"
  const NOT_IN_VOICE := "Must be used in the voice channel"
  const NOT_A_MEMBER := "You are not a member of the voice channel"
  const SKIP_FAILED := "Failed to skip the song"
  const FORCE_SKIPPED := "Force skipped"
  const VOTE_SKIPPED := "Vote skipped"
  const SKIP_COLOR := Rgb(255, 103, 72)

  /** `Math.ceil(userCount / 2)`: the least count that is at least half. */
  function QuorumTarget(userCount: nat): (target: nat)
    ensures 2 * target >= userCount
    ensures target > 0 ==> 2 * (target - 1) < userCount
  {
    (userCount + 1) / 2
  }

  lemma QuorumExamples()
    ensures QuorumTarget(0) == 0 && QuorumTarget(1) == 1
    ensures QuorumTarget(3) == 2 && QuorumTarget(4) == 2
  {
  }

  /** Reaching the target means that at least half of the users voted. */
  lemma QuorumIsHalf(voteCount: nat, userCount: nat)
    ensures voteCount >= QuorumTarget(userCount) <==> 2 * voteCount >= userCount
  {
  }

  /** `force && user !== null && user.canForceSkip`, with `force` defaulted
      to `false`: the force-skip path is taken exactly for a stored user
      with the privilege who set the option to `true`. */
  function MayForceSkip(force: Option<bool>, user: Option<UserRecord>): (may: bool)
    ensures may <==> force == Some(true) && user.Some? && user.value.canForceSkip
  {
    force.GetOr(false) && user.Some? && user.value.canForceSkip
  }

  /** The song card of `songEmbed`, recoloured and redescribed. */
  function SkipCard(song: Song, description: string, jacketDirectory: string): (card: SongCard)
    ensures card.embed.color == SKIP_COLOR && card.embed.description == description
    ensures card.embed.title == song.title && card.embed.author == song.artist
    ensures card.files == SongEmbed(song, jacketDirectory).files
    ensures card.embed.thumbnail == SongEmbed(song, jacketDirectory).embed.thumbnail
  {
    var base := SongEmbed(song, jacketDirectory);
    base.(embed := base.embed.(color := SKIP_COLOR, description := description))
  }

  /** `text` splits on `/` into two decimal renderings, of `a` and `b`. */
  predicate ReadsBackAs(text: string, a: nat, b: nat) {
    var parts := Split(text, '/');
    && |parts| == 2 && IsDecimal(parts[0]) && IsDecimal(parts[1])
    && DigitsValue(parts[0]) == a && DigitsValue(parts[1]) == b
  }

  /** The vote progress text `${voteCount}/${targetCount}`, which reads
      back as the two counts. */
  function ProgressText(voteCount: nat, target: nat): (text: string)
    ensures ReadsBackAs(text, voteCount, target)
  {
    var a := NatToString(voteCount);
    var b := NatToString(target);
    assert '/' !in a by { assert forall k :: 0 <= k < |a| ==> IsDigit(a[k]); }
    assert '/' !in b by { assert forall k :: 0 <= k < |b| ==> IsDigit(b[k]); }
    JoinCons([a, b], "/");
    assert [a, b][1..] == [b];
    JoinThenSplit([a, b], '/');
    NatToStringValue(voteCount);
    NatToStringValue(target);
    a + "/" + b
  }

  /** `SkipCommand.command`. `song` is what `getCurrentSong` returns,
      `skipped` what `skipCurrentSong` returns and `tally` what `voteSkip`
      returns; `force` is the optional boolean option of the command. */
  function SkipCommand(
    song: Option<Song>, force: Option<bool>, userId: string, user: Option<UserRecord>,
    channel: Channel, skipped: bool, tally: VoteTally, jacketDirectory: string): (o: Outcome)
    // Nothing playing: no lookup, no vote, no skip.
    ensures song.None? ==> o == Outcome([], false, Rejection(NOTHING_PLAYING))
    // Every other path looks the user up first.
    ensures song.Some? ==> |o.calls| >= 1 && o.calls[0] == FindUser(userId)
    // Outside a voice channel, or not in it: rejected before any skip or vote.
    ensures song.Some? && channel.OtherChannel? ==> o == Outcome([FindUser(userId)], false, Rejection(NOT_IN_VOICE))
    ensures song.Some? && channel.VoiceChannel? && userId !in channel.members ==>
      o == Outcome([FindUser(userId)], false, Rejection(NOT_A_MEMBER))
    // A skip or a vote is attempted only by a member of the voice channel
    // while a song is playing.
    ensures SkipCurrentSong in o.calls || VoteSkip(userId) in o.calls ==>
      song.Some? && channel.VoiceChannel? && userId in channel.members
    // The force path: skipped without a vote, failure reported.
    ensures o.calls == [FindUser(userId), SkipCurrentSong] && !o.deferred <==>
      song.Some? && channel.VoiceChannel? && userId in channel.members && MayForceSkip(force, user)
    ensures song.Some? && channel.VoiceChannel? && userId in channel.members && MayForceSkip(force, user) ==>
      o.answer == if skipped then Announcement(SkipCard(song.value, FORCE_SKIPPED, jacketDirectory))
                  else Rejection(SKIP_FAILED)
    // The vote path: the reply is deferred, the vote is cast, and the song
    // is skipped exactly when the quorum is reached, whatever the skip call
    // returns.
    ensures o.deferred <==>
      song.Some? && channel.VoiceChannel? && userId in channel.members && !MayForceSkip(force, user)
    ensures o.deferred ==>
      var quorum := tally.voteCount >= QuorumTarget(tally.userCount);
      && o.calls == [FindUser(userId), VoteSkip(userId)] + (if quorum then [SkipCurrentSong] else [])
      && o.answer == if quorum then Announcement(SkipCard(song.value, VOTE_SKIPPED, jacketDirectory))
                     else Progress(ProgressText(tally.voteCount, QuorumTarget(tally.userCount)))
  {
    match song
    case None => Outcome([], false, Rejection(NOTHING_PLAYING))
    case Some(current) =>
      var lookup := [FindUser(userId)];
      match channel
      case OtherChannel => Outcome(lookup, false, Rejection(NOT_IN_VOICE))
      case VoiceChannel(members) =>
        if userId !in members then
          Outcome(lookup, false, Rejection(NOT_A_MEMBER))
        else if MayForceSkip(force, user) then
          Outcome(lookup + [SkipCurrentSong], false,
                  if skipped then Announcement(SkipCard(current, FORCE_SKIPPED, jacketDirectory))
                  else Rejection(SKIP_FAILED))
        else
          var voted := lookup + [VoteSkip(userId)];
          var target := QuorumTarget(tally.userCount);
          if tally.voteCount >= target then
            Outcome(voted + [SkipCurrentSong], true, Announcement(SkipCard(current, VOTE_SKIPPED, jacketDirectory)))
          else
            Outcome(voted, true, Progress(ProgressText(tally.voteCount, target)))
  }

  /** An absent `force` option behaves as `false`. */
  lemma ForceDefaultsToFalse(
    song: Option<Song>, userId: string, user: Option<UserRecord>,
    channel: Channel, skipped: bool, tally: VoteTally, jacketDirectory: string)
    ensures SkipCommand(song, None, userId, user, channel, skipped, tally, jacketDirectory)
         == SkipCommand(song, Some(false), userId, user, channel, skipped, tally, jacketDirectory)
  {
  }

  /** On the vote path the result of the skip call is never consulted. */
  lemma VoteIgnoresSkipResult(
    song: Option<Song>, force: Option<bool>, userId: string, user: Option<UserRecord>,
    channel: Channel, tally: VoteTally, jacketDirectory: string)
    requires !MayForceSkip(force, user)
    ensures SkipCommand(song, force, userId, user, channel, true, tally, jacketDirectory)
         == SkipCommand(song, force, userId, user, channel, false, tally, jacketDirectory)
  {
  }
}

=== FILE: strings.dfy ===
/** The handful of JavaScript string operations the bot relies on, stated
    over `seq<char>`: `indexOf`, `split` on one character, `split` on runs of
    one character (the regular expression `/c+/`), `join`, `startsWith`,
    decimal rendering of integers and ASCII lower-casing. */
module Strings {
  import opened Wrappers

  /** A character of the class `[a-zA-Z0-9]`. */
  predicate IsAlnum(c: char) {
    'a' <= c <= 'z' || 'A' <= c <= 'Z' || '0' <= c <= '9'
  }

  predicate IsDigit(c: char) {
    '0' <= c <= '9'
  }

  predicate AllDigits(s: string) {
    forall k :: 0 <= k < |s| ==> IsDigit(s[k])
  }

  predicate StartsWith(s: string, prefix: string) {
    |prefix| <= |s| && s[..|prefix|] == prefix
  }

  /** `s.startsWith(prefix)` holds exactly when `s` is `prefix` followed by
      some text. */
  lemma StartsWithConcat(s: string, prefix: string, rest: string)
    ensures s == prefix + rest ==> StartsWith(s, prefix)
    ensures StartsWith(s, prefix) ==> s == prefix + s[|prefix|..]
  {
    if s == prefix + rest {
      assert s[..|prefix|] == prefix;
    }
    if StartsWith(s, prefix) {
      assert s == s[..|prefix|] + s[|prefix|..];
    }
  }

  // ---------------------------------------------------------------------------
  // Searching for one character

  /** `s.indexOf(c)` for a single character: the first position holding `c`. */
  function IndexOf(s: string, c: char): (r: Option<nat>)
    ensures r.Some? ==> r.value < |s| && s[r.value] == c && c !in s[..r.value]
    ensures r.None? <==> c !in s
    decreases |s|
  {
    if |s| == 0 then None
    else if s[0] == c then Some(0)
    else
      match IndexOf(s[1..], c)
      case None => None
      case Some(i) =>
        assert s[..i + 1] == [s[0]] + s[1..][..i];
        Some(i + 1)
  }

  /** The first occurrence of `c` in `a + [c] + b` is the one after `a`
      whenever `a` does not contain `c`. */
  lemma IndexOfAfterFree(a: string, c: char, b: string)
    requires c !in a
    ensures IndexOf(a + [c] + b, c) == Some(|a|)
  {
    var s := a + [c] + b;
    assert s[|a|] == c;
    assert forall j :: 0 <= j < |a| ==> s[j] == a[j];
    assert forall m :: |a| < m <= |s| ==> s[|a|] in s[..m];
  }

  // ---------------------------------------------------------------------------
  // Joining and splitting

  /** `parts.join(sep)`. */
  function Join(parts: seq<string>, sep: string): string
    decreases |parts|
  {
    if |parts| == 0 then ""
    else if |parts| == 1 then parts[0]
    else parts[0] + sep + Join(parts[1..], sep)
  }

  /** A join starts with the first part and ends with the last; no parts
      join to the empty string. */
  lemma {:induction false} JoinEnds(parts: seq<string>, sep: string)
    ensures |parts| == 0 ==> Join(parts, sep) == ""
    ensures |parts| > 0 ==> StartsWith(Join(parts, sep), parts[0])
    ensures |parts| > 0 ==> var r, last := Join(parts, sep), parts[|parts| - 1];
      |last| <= |r| && r[|r| - |last|..] == last
    decreases |parts|
  {
    if |parts| >= 2 {
      var r := Join(parts, sep);
      var tail := Join(parts[1..], sep);
      JoinEnds(parts[1..], sep);
      assert r == parts[0] + sep + tail;
      assert r[..|parts[0]|] == parts[0];
      assert parts[1..][|parts[1..]| - 1] == parts[|parts| - 1];
      assert r[|r| - |tail|..] == tail;
    }
  }

  /** Joining two or more parts puts the separator right after the first. */
  lemma JoinCons(parts: seq<string>, sep: string)
    requires |parts| >= 2
    ensures Join(parts, sep) == parts[0] + sep + Join(parts[1..], sep)
  {
  }

  /** `s.split(c)`: the pieces between successive occurrences of `c`,
      empty pieces included. */
  function Split(s: string, c: char): (parts: seq<string>)
    ensures |parts| >= 1
    ensures forall k :: 0 <= k < |parts| ==> c !in parts[k]
    ensures |parts| > 1 <==> c in s
    decreases |s|
  {
    match IndexOf(s, c)
    case None => [s]
    case Some(i) => [s[..i]] + Split(s[i + 1..], c)
  }

  /** Splitting loses nothing: joining the pieces back gives the input. */
  lemma {:induction false} SplitThenJoin(s: string, c: char)
    ensures Join(Split(s, c), [c]) == s
    decreases |s|
  {
    match IndexOf(s, c)
    case None =>
    case Some(i) =>
      var rest := Split(s[i + 1..], c);
      SplitThenJoin(s[i + 1..], c);
      assert Split(s, c) == [s[..i]] + rest;
      assert ([s[..i]] + rest)[1..] == rest;
      JoinCons([s[..i]] + rest, [c]);
      assert s == s[..i] + [c] + s[i + 1..];
  }

  /** Text free of `c`, then `c`, splits into that text and the split of
      what follows. */
  lemma SplitAfterFree(a: string, c: char, b: string)
    requires c !in a
    ensures Split(a + [c] + b, c) == [a] + Split(b, c)
  {
    var s := a + [c] + b;
    IndexOfAfterFree(a, c, b);
    assert s[..|a|] == a;
    assert s[|a| + 1..] == b;
  }

  /** Joining pieces free of `c` and splitting again gives the pieces back. */
  lemma {:induction false} JoinThenSplit(parts: seq<string>, c: char)
    requires |parts| >= 1
    requires forall k :: 0 <= k < |parts| ==> c !in parts[k]
    ensures Split(Join(parts, [c]), c) == parts
    decreases |parts|
  {
    if |parts| > 1 {
      var tail := Join(parts[1..], [c]);
      JoinCons(parts, [c]);
      SplitAfterFree(parts[0], c, tail);
      JoinThenSplit(parts[1..], c);
      assert parts == [parts[0]] + parts[1..];
    }
  }

  /** The first piece of a split is the text before the first `c`. */
  lemma SplitHead(s: string, c: char)
    ensures var head := Split(s, c)[0];
      StartsWith(s, head) && (|head| == |s| || s[|head|] == c)
  {
    match IndexOf(s, c)
    case None =>
      assert s[..|s|] == s;
    case Some(i) =>
  }

  /** The pieces after the first are the split of the text after the first `c`. */
  lemma SplitTail(s: string, c: char)
    requires c in s
    ensures var head := Split(s, c)[0];
      |head| < |s| && Split(s, c)[1..] == Split(s[|head| + 1..], c)
  {
    var i := IndexOf(s, c).value;
    var rest := Split(s[i + 1..], c);
    assert Split(s, c) == [s[..i]] + rest;
    assert ([s[..i]] + rest)[1..] == rest;
  }

  /** A join contains `c` only if a piece or the separator does. */
  lemma {:induction false} JoinFree(parts: seq<string>, sep: string, c: char)
    requires c !in sep
    requires forall k :: 0 <= k < |parts| ==> c !in parts[k]
    ensures c !in Join(parts, sep)
    decreases |parts|
  {
    if |parts| > 1 {
      JoinFree(parts[1..], sep, c);
    }
  }

  /** The length of the leading run of `c` characters. */
  function RunLength(s: string, c: char): (n: nat)
    ensures n <= |s|
    ensures forall k :: 0 <= k < n ==> s[k] == c
    ensures n == |s| || s[n] != c
    decreases |s|
  {
    if |s| > 0 && s[0] == c then 1 + RunLength(s[1..], c) else 0
  }

  /** `s.split(/c+/)`: the pieces between maximal runs of `c`. Only the
      first and the last piece can be empty. */
  function SplitRuns(s: string, c: char): (parts: seq<string>)
    ensures |parts| >= 1
    ensures forall k :: 0 <= k < |parts| ==> c !in parts[k]
    ensures |parts| > 1 <==> c in s
    ensures |s| > 0 && s[0] != c ==> |parts[0]| > 0
    ensures forall k :: 1 <= k < |parts| - 1 ==> |parts[k]| > 0
    decreases |s|
  {
    match IndexOf(s, c)
    case None => [s]
    case Some(i) =>
      var rest := SplitRuns(s[i + 1..][RunLength(s[i + 1..], c)..], c);
      var parts := [s[..i]] + rest;
      assert parts[1..] == rest;
      parts
  }

  /** The first piece of a split on runs is the text before the first `c`. */
  lemma SplitRunsHead(s: string, c: char)
    ensures var head := SplitRuns(s, c)[0];
      StartsWith(s, head) && (|head| == |s| || s[|head|] == c)
  {
    match IndexOf(s, c)
    case None =>
      assert s[..|s|] == s;
    case Some(i) =>
  }

  /** The pieces after the first are the split on runs of the text after
      the first run of `c`. With `SplitRunsHead` this pins every piece. */
  lemma SplitRunsTail(s: string, c: char)
    requires c in s
    ensures var head := SplitRuns(s, c)[0];
      var after := s[|head| + 1..];
      && |head| < |s| && s[|head|] == c
      && SplitRuns(s, c)[1..] == SplitRuns(after[RunLength(after, c)..], c)
  {
    var i := IndexOf(s, c).value;
    var after := s[i + 1..];
    var rest := SplitRuns(after[RunLength(after, c)..], c);
    assert SplitRuns(s, c) == [s[..i]] + rest;
    assert ([s[..i]] + rest)[1..] == rest;
  }

  /** A single `c` that is not followed by another `c` separates the first
      piece from the rest. */
  lemma SplitRunsAfterFree(a: string, c: char, b: string)
    requires c !in a
    requires |b| == 0 || b[0] != c
    ensures SplitRuns(a + [c] + b, c) == [a] + SplitRuns(b, c)
  {
    var s := a + [c] + b;
    IndexOfAfterFree(a, c, b);
    assert s[..|a|] == a;
    assert s[|a| + 1..] == b;
    assert RunLength(b, c) == 0;
  }

  /** A join starts with the first character of its first piece. */
  lemma JoinHead(parts: seq<string>, sep: string)
    requires |parts| >= 1 && |parts[0]| > 0
    ensures |Join(parts, sep)| > 0 && Join(parts, sep)[0] == parts[0][0]
  {
    if |parts| > 1 {
      JoinCons(parts, sep);
    }
  }

  /** Joining non-empty pieces free of `c` and splitting on runs of `c`
      gives the pieces back (the first piece may be empty). */
  lemma {:induction false} JoinThenSplitRuns(parts: seq<string>, c: char)
    requires |parts| >= 1
    requires forall k :: 0 <= k < |parts| ==> c !in parts[k]
    requires forall k :: 1 <= k < |parts| ==> |parts[k]| > 0
    ensures SplitRuns(Join(parts, [c]), c) == parts
    decreases |parts|
  {
    if |parts| > 1 {
      var tail := Join(parts[1..], [c]);
      JoinCons(parts, [c]);
      JoinHead(parts[1..], [c]);
      assert parts[1][0] in parts[1];
      SplitRunsAfterFree(parts[0], c, tail);
      JoinThenSplitRuns(parts[1..], c);
      assert parts == [parts[0]] + parts[1..];
    }
  }

  // ---------------------------------------------------------------------------
  // Decimal rendering (`${n}` for an integral number)

  function DigitValue(ch: char): nat
    requires IsDigit(ch)
  {
    ch as int - '0' as int
  }

  function DigitChar(d: nat): (ch: char)
    requires d < 10
    ensures IsDigit(ch) && DigitValue(ch) == d
  {
    ('0' as int + d) as char
  }

  /** How JavaScript renders a natural number: at least one digit, and no
      leading zero unless the number is zero. */
  predicate IsDecimal(d: string) {
    |d| > 0 && AllDigits(d) && (d[0] == '0' ==> |d| == 1)
  }

  /** The decimal digits of `n`, most significant first, no leading zero. */
  function NatToString(n: nat): (s: string)
    ensures |s| >= 1 && AllDigits(s)
    ensures n < 10 <==> |s| == 1
    ensures 10 <= n < 100 ==> |s| == 2
    ensures s[|s| - 1] == DigitChar(n % 10)
    ensures s[0] == '0' <==> n == 0
    decreases n
  {
    if n < 10 then [DigitChar(n)] else NatToString(n / 10) + [DigitChar(n % 10)]
  }

  /** The number a string of decimal digits denotes. */
  function DigitsValue(s: string): nat
    requires AllDigits(s)
    decreases |s|
  {
    if |s| == 0 then 0 else 10 * DigitsValue(s[..|s| - 1]) + DigitValue(s[|s| - 1])
  }

  /** Reading the rendered digits back gives the number. */
  lemma {:induction false} NatToStringValue(n: nat)
    ensures DigitsValue(NatToString(n)) == n
    decreases n
  {
    if n >= 10 {
      var s := NatToString(n);
      assert s[..|s| - 1] == NatToString(n / 10);
      NatToStringValue(n / 10);
    }
  }

  /** `${i}` for an integral number of either sign. */
  function IntToString(i: int): (r: string)
    ensures i >= 0 ==> AllDigits(r) && DigitsValue(r) == i
    ensures i < 0 ==> |r| >= 2 && r[0] == '-' && AllDigits(r[1..]) && DigitsValue(r[1..]) == -i
    ensures |r| >= 1 && (r[0] == '0' ==> r == "0")
  {
    if i < 0 then
      var digits := NatToString(-i);
      NatToStringValue(-i);
      assert ("-" + digits)[1..] == digits;
      "-" + digits
    else
      NatToStringValue(i);
      NatToString(i)
  }

  // ---------------------------------------------------------------------------
  // Substrings and case

  /** `pat` occurs in `s` starting at position `i`. */
  predicate OccursAt(pat: string, s: string, i: nat) {
    i + |pat| <= |s| && s[i..i + |pat|] == pat
  }

  /** `s.indexOf(pat, from)`: the first occurrence of `pat` at or after `from`. */
  function IndexOfText(s: string, pat: string, from: nat): (r: Option<nat>)
    ensures r.Some? ==> from <= r.value && OccursAt(pat, s, r.value)
    ensures r.Some? ==> forall j: nat :: from <= j < r.value ==> !OccursAt(pat, s, j)
    ensures r.None? ==> forall j: nat :: from <= j ==> !OccursAt(pat, s, j)
    decreases |s| - from
  {
    if from + |pat| > |s| then None
    else if s[from..from + |pat|] == pat then Some(from)
    else IndexOfText(s, pat, from + 1)
  }

  predicate IsUpper(c: char) {
    'A' <= c <= 'Z'
  }

  /** `c.toLowerCase()` restricted to ASCII letters. */
  function LowerChar(c: char): char {
    if IsUpper(c) then (c as int + 32) as char else c
  }

  /** `s.toLowerCase()` restricted to ASCII letters: every upper-case letter
      becomes a lower-case one, and every other character stays. */
  function Lower(s: string): (r: string)
    ensures |r| == |s|
    ensures forall i :: 0 <= i < |r| ==> !IsUpper(r[i])
    ensures forall i :: 0 <= i < |s| && IsUpper(s[i]) ==> 'a' <= r[i] <= 'z'
    ensures forall i :: 0 <= i < |s| && IsUpper(s[i]) ==> r[i] as int == s[i] as int + 32
    ensures forall i :: 0 <= i < |s| && !IsUpper(s[i]) ==> r[i] == s[i]
  {
    seq(|s|, i requires 0 <= i < |s| => LowerChar(s[i]))
  }
}

=== FILE: util.dfy ===
/** Helpers of src/util.ts: random selection, the in-place Fisher–Yates
    shuffle, and the embed card that presents a song. `Math.random()` is a
    nondeterministic choice of a real in [0, 1). */
module Util {
  import opened Wrappers
  import opened Strings

  // ---------------------------------------------------------------------------
  // Randomness

  /** `Math.floor(Math.random() * n)`: some index below `n` (0 when `n`
      is 0), every one of which the random draw can produce. */
  method RandomIndex(n: nat) returns (k: nat)
    ensures n > 0 ==> k < n
    ensures n == 0 ==> k == 0
  {
    k :| if n > 0 then k < n else k == 0;
  }

  /** `randomArrayElement`: an element at a random index; an empty array
      yields `undefined`. */
  method RandomArrayElement<T>(a: seq<T>) returns (r: Option<T>)
    ensures r.None? <==> |a| == 0
    ensures r.Some? ==> r.value in a
  {
    var index := RandomIndex(|a|);
    r := if index < |a| then Some(a[index]) else None;
  }

  // ---------------------------------------------------------------------------
  // Fisher–Yates shuffle

  /** Exchanges the elements at `i` and `j`. */
  function SwapAt<T>(s: seq<T>, i: nat, j: nat): (r: seq<T>)
    requires i < |s| && j < |s|
    ensures |r| == |s|
  {
    seq(|s|, k requires 0 <= k < |s| => if k == i then s[j] else if k == j then s[i] else s[k])
  }

  /** A swap is a permutation. */
  lemma SwapAtPermutes<T>(s: seq<T>, i: nat, j: nat)
    requires i < |s| && j < |s|
    ensures multiset(SwapAt(s, i, j)) == multiset(s)
  {
    assert SwapAt(s, i, j) == s[i := s[j]][j := s[i]];
  }

  /** Swap indices a shuffle of `n` elements may draw: the k-th swap
      exchanges position `n - 1 - k` with a position no later than it. */
  predicate DrawsFit(n: nat, draws: seq<nat>) {
    && |draws| <= n
    && forall k :: 0 <= k < |draws| ==> draws[k] <= n - 1 - k
  }

  /** A complete draw sequence: one swap for each position `n - 1` down to 1. */
  predicate ValidDraws(n: nat, draws: seq<nat>) {
    && DrawsFit(n, draws)
    && |draws| == (if n == 0 then 0 else n - 1)
  }

  /** `s` after the first `count` swaps `(|s| - 1 - k, draws[k])`, in order. */
  function ApplySwaps<T>(s: seq<T>, draws: seq<nat>, count: nat): (r: seq<T>)
    requires count <= |draws| && DrawsFit(|s|, draws)
    ensures |r| == |s|
  {
    if count == 0 then s
    else SwapAt(ApplySwaps(s, draws, count - 1), |s| - count, draws[count - 1])
  }

  /** Draws made later do not change the effect of the earlier ones. */
  lemma {:induction false} ApplySwapsPrefix<T>(s: seq<T>, draws: seq<nat>, more: seq<nat>, count: nat)
    requires count <= |draws| && DrawsFit(|s|, draws) && DrawsFit(|s|, draws + more)
    ensures ApplySwaps(s, draws + more, count) == ApplySwaps(s, draws, count)
  {
    if count > 0 {
      ApplySwapsPrefix(s, draws, more, count - 1);
      assert (draws + more)[count - 1] == draws[count - 1];
    }
  }

  /** Any number of swaps is a permutation: the same elements with the
      same multiplicities. */
  lemma {:induction false} ApplySwapsPermutes<T>(s: seq<T>, draws: seq<nat>, count: nat)
    requires count <= |draws| && DrawsFit(|s|, draws)
    ensures multiset(ApplySwaps(s, draws, count)) == multiset(s)
  {
    if count > 0 {
      var before := ApplySwaps(s, draws, count - 1);
      ApplySwapsPermutes(s, draws, count - 1);
      SwapAtPermutes(before, |s| - count, draws[count - 1]);
    }
  }

  /** `shuffle`: the Fisher–Yates shuffle, walking `i` from the last position
      down to 1 and swapping it with a random position `j <= i`. The array
      is modelled as a value; the drawn indices are returned as well, so
      that the result can be stated. */
  method Shuffle<T>(s: seq<T>) returns (r: seq<T>, draws: seq<nat>)
    ensures ValidDraws(|s|, draws)
    ensures r == ApplySwaps(s, draws, |draws|)
    ensures multiset(r) == multiset(s)
    ensures |s| <= 1 ==> r == s
  {
    r := s;
    draws := [];
    if |s| == 0 {
      return;
    }
    var i := |s| - 1;
    while i > 0
      invariant 0 <= i < |s|
      invariant |draws| == |s| - 1 - i
      invariant DrawsFit(|s|, draws)
      invariant r == ApplySwaps(s, draws, |draws|)
    {
      var j := RandomIndex(i + 1);
      r := SwapAt(r, i, j);
      ApplySwapsPrefix(s, draws, [j], |draws|);
      draws := draws + [j];
      i := i - 1;
    }
    ApplySwapsPermutes(s, draws, |draws|);
  }

  // ---------------------------------------------------------------------------
  // Song card

  datatype Song = Song(
    title: string,
    artist: string,
    userId: string,
    addedMillis: int,
    artworkUrl: Option<string>)

  datatype Rgb = Rgb(red: nat, green: nat, blue: nat)

  datatype Embed = Embed(
    title: string,
    author: string,
    color: Rgb,
    description: string,
    thumbnail: Option<string>)

  datatype Attachment = Attachment(path: string, name: string)

  datatype SongCard = SongCard(embed: Embed, files: seq<Attachment>)

  const SONG_COLOR := Rgb(103, 72, 255)
  const REMOTE_PREFIX := "https://"
  const RESOURCE_PREFIX := "res://"
  const COVER_NAME := "cover.webp"
  const COVER_THUMBNAIL := "attachment://cover.webp"

  /** `Math.floor(millis / 1000)`: whole seconds since the epoch. */
  function UnixSeconds(millis: int): (seconds: int)
    ensures seconds * 1000 <= millis < seconds * 1000 + 1000
  {
    millis / 1000
  }

  /** No URL starts with both recognised prefixes. */
  lemma PrefixesExclusive(url: string)
    ensures !(StartsWith(url, REMOTE_PREFIX) && StartsWith(url, RESOURCE_PREFIX))
  {
    if StartsWith(url, REMOTE_PREFIX) {
      assert url[0] == REMOTE_PREFIX[0] == 'h';
    }
  }

  /** The thumbnail and attachments for an artwork URL. */
  function Artwork(url: Option<string>, jacketDirectory: string): (r: (Option<string>, seq<Attachment>))
    ensures url.Some? && StartsWith(url.value, REMOTE_PREFIX) ==> r == (url, [])
    ensures url.Some? && StartsWith(url.value, RESOURCE_PREFIX) ==>
      r == (Some(COVER_THUMBNAIL),
            [Attachment(jacketDirectory + "/" + url.value[|RESOURCE_PREFIX|..], COVER_NAME)])
    ensures url.None? || (!StartsWith(url.value, REMOTE_PREFIX) && !StartsWith(url.value, RESOURCE_PREFIX)) ==>
      r == (None, [])
  {
    if url.Some? && |url.value| > 0 then
      PrefixesExclusive(url.value);
      if StartsWith(url.value, REMOTE_PREFIX) then
        (url, [])
      else if StartsWith(url.value, RESOURCE_PREFIX) then
        (Some(COVER_THUMBNAIL),
         [Attachment(jacketDirectory + "/" + url.value[|RESOURCE_PREFIX|..], COVER_NAME)])
      else
        (None, [])
    else
      (None, [])
  }

  /** The attachment path keeps everything after `res://`: putting the
      prefix back in place of the jacket directory gives back the URL. */
  lemma ArtworkResourceRoundTrip(url: string, jacketDirectory: string)
    requires StartsWith(url, RESOURCE_PREFIX)
    ensures var files := Artwork(Some(url), jacketDirectory).1;
      && |files| == 1
      && StartsWith(files[0].path, jacketDirectory + "/")
      && RESOURCE_PREFIX + files[0].path[|jacketDirectory| + 1..] == url
  {
    var rest := url[|RESOURCE_PREFIX|..];
    var path := jacketDirectory + "/" + rest;
    assert path[..|jacketDirectory| + 1] == jacketDirectory + "/";
    assert path[|jacketDirectory| + 1..] == rest;
    assert url == url[..|RESOURCE_PREFIX|] + rest;
  }

  /** `songEmbed`. */
  function SongEmbed(song: Song, jacketDirectory: string): (card: SongCard)
    ensures card.embed.title == song.title && card.embed.author == song.artist
    ensures card.embed.color == SONG_COLOR
    ensures card.embed.description ==
      "Added by <@" + song.userId + "> <t:" + IntToString(UnixSeconds(song.addedMillis)) + ":R>"
    ensures |card.files| <= 1
    ensures |card.files| == 1 <==> song.artworkUrl.Some? && StartsWith(song.artworkUrl.value, RESOURCE_PREFIX)
    ensures card.embed.thumbnail.Some? <==>
      song.artworkUrl.Some? &&
      (StartsWith(song.artworkUrl.value, REMOTE_PREFIX) || StartsWith(song.artworkUrl.value, RESOURCE_PREFIX))
    // The thumbnail and the attachment are the ones the artwork rules pick.
    ensures (card.embed.thumbnail, card.files) == Artwork(song.artworkUrl, jacketDirectory)
  {
    var (thumbnail, files) := Artwork(song.artworkUrl, jacketDirectory);
    var seconds := UnixSeconds(song.addedMillis);
    SongCard(
      Embed(song.title, song.artist, SONG_COLOR,
            "Added by <@" + song.userId + "> <t:" + IntToString(seconds) + ":R>",
            thumbnail),
      files)
  }
}

=== FILE: wrappers.dfy ===
/** Failure-carrying datatypes shared by the whole model. A JavaScript
    `undefined`/`null` becomes `None`; a thrown `Error` becomes `Err` with
    the error's message. */
module Wrappers {

  datatype Option<+T> = None | Some(value: T) {

    /** The value, or `default` when absent (the `??` operator). */
    function GetOr(default: T): T {
      match this
      case Some(v) => v
      case None => default
    }
  }

  datatype Result<+T> = Ok(value: T) | Err(error: string)
}
